=== FILE: README.md ===
# Campsite availability reports, modelled in Dafny

This project models the reporting pipeline of a campsite-availability search tool.
The tool has two search scripts: the main script and the "favorites" script. Each
search returns a list of availability matches, one per campsite and night. The model
covers what happens to those matches:

- **Summary building** (`build_results_summary`). The matches of one recreation area
  are folded into a summary. It holds per-date counts, a facility → campsite tree
  (dates, location, amenities) and every amenity's sorted distinct values. The provider
  id is found by a reverse lookup in the static provider registry (`REC_AREAS`).
- **Provider selection** (`get_providers`). Requested provider ids are checked against
  the registry, with a default when none is given.
- **Saving** (`save_rec_area_json`, both variants). A summary is written as
  `logs/<base>.json`. When HTML is given, it is also written as `logs/<base>.html`
  behind a "generated at" comment. The base name is the sanitised area name and the
  date range. The favorites variant adds a save-time stamp.
- **Regeneration** (`regenerate_reports`). Every stored summary with usable
  `date_counts` gets its HTML rendered again behind a "regenerated at" comment. A bad
  file is skipped without stopping the run. The index is rebuilt afterwards.
- **Index building** (`generate_index_html`, both variants). There is one entry per
  stored report that has both files and a usable JSON. Entries are sorted descending by
  their display text.

## Modules

- `Common`: `Option`, `Result`, prefix helpers, `Dedup` and `FilterMap`.
- `Text`: Python's string order, ASCII lower-casing, and the minimum and maximum of a
  list of strings.
- `AssocList`: insertion-ordered dicts as association lists.
- `Sorting`: sorting into a strictly ascending list, and Python's stable
  `sort(reverse=True)`.
- `Clock`: date-times and the `strftime` formats the scripts use, with the strict
  `strptime` parse of the ISO form.
- `Providers`: the two registries, `get_providers`, and the provider-id lookup.
- `Aggregation` and `AggregationFacts`:
  - the fold, and reference definitions of what each part of it should hold;
  - proofs that the two agree, and that later matches never undo earlier ones.
- `Results`: the summary and `build_results_summary`.
- `Storage`: the `logs` directory, with the JSON document and HTML file per base name.
- `ReportStore`: filename sanitising and both save variants.
- `Index`: both index variants, and the chronological sort.
- `Regenerate`: the regeneration run.

Everything the scripts read from outside is a parameter:

- the clock (`now`, the reading taken for each regenerated file, and one fallback
  runtime for each index build);
- the modification time each written HTML file gets;
- template rendering (`Env.render`);
- the Maps API key;
- the search results (the match sequence);
- the directory, which is a sequence in the order `glob` lists it.

## Model

| member | source | states |
|---|---|---|
| Providers.GetProviders | src/californias_best.py:89-103 | No ids (`None` or empty) gives exactly the default provider's registry entry. Otherwise it fails exactly when some id is unknown, and the error carries exactly the unknown ids. On success the keys are the requested ids, distinct, in first-seen order, each with its registry entry. |
| Providers.SelectProviders | src/californias_best.py:103 | The dict comprehension keeps one key per distinct id, in first-seen order, each mapped to its registry entry. It maps no other key. |
| Providers.FindProviderId | src/californias_best.py:209 | The lookup succeeds exactly when some registry entry carries the display name. It then returns the id of the first such entry. |
| Providers.ProviderIdRoundTrip | src/californias_best.py:209 | When display names are distinct, looking up an entry's display name returns that entry's own id. |
| Providers.RegistriesHaveDistinctNames | src/californias_best.py:33-59 | Both registries have distinct display names, so the lookup is a true inverse on them. |
| AggregationFacts.DateCountsAgree | src/californias_best.py:153-158 | `date_counts` has one key per booking date, in first-seen order. Each count is the number of matches on that date. The counts sum to the number of matches. |
| AggregationFacts.TotalDates | src/californias_best.py:169-180 | Each match appends its date to exactly one campsite, so the dates lists summed over all campsites hold exactly one entry per match, duplicates kept. |
| AggregationFacts.SitesAgreeFold | src/californias_best.py:160-195 | `available_sites` has one facility per facility name, in first-seen order. Its id and name come from its first match, and its location is the first location any of its matches carries. Each campsite keeps its id, name and booking URL from its first match, every date in order, and the last location seen. |
| AggregationFacts.ApplyAttributesAgree | src/californias_best.py:197-203 | A campsite's amenities map each recorded attribute name, in first-seen order, to the value of the last attribute with that name. Attributes with an empty name or value change nothing. |
| AggregationFacts.ValuesAgreeFold | src/californias_best.py:197-203 | Before sorting, `all_amenities` maps each recorded name to a duplicate-free list of exactly the values recorded for it in any match. |
| AggregationFacts.KeysStable | src/californias_best.py:161-167 | The facility keys present after some matches stay first and in the same order, whatever matches follow. No entry is ever removed. |
| AggregationFacts.EntriesStable | src/californias_best.py:161-189 | Once a facility has an entry, later matches keep its id and its name. Once its location is set, they keep the location too. |
| AggregationFacts.CampsiteStable | favorites/californias_best.py:132-151 | Once a campsite has an entry, later matches keep its id, its name and its booking URL. |
| Aggregation.Step | src/californias_best.py:156-203 | One iteration of the loop. It has no contract of its own. What it does is stated through the fold by AggregationFacts.DateCountsAgree, AggregationFacts.SitesAgreeFold and AggregationFacts.ValuesAgreeFold. |
| Aggregation.Fold | src/californias_best.py:156-203 | The loop as a left fold over the matches in input order. It has no contract of its own. Its result is stated against the reference definitions by the same three lemmas, and by AggregationFacts.TotalDates. |
| Results.SortValues | src/californias_best.py:216 | The comprehension keeps the keys and their order. Each value list becomes strictly ascending, with exactly the same members. |
| Results.BuildResultsSummary | src/californias_best.py:152-217 | Fails exactly when no registry entry carries the provider name. On success: the runtime parses back to `now`; the provider id is that of the first entry with the name; the area fields are the arguments; `total_sites` equals the number of matches and the sum of the date counts; the date counts, facility tree and amenity values agree with the reference definitions; the dates lists add up to the number of matches; and every amenity list is strictly ascending and holds exactly the recorded values. |
| Results.FoldSummarizes | favorites/californias_best.py:123-188 | The favorites script's identical loop yields the same guarantees for any registry. |
| Sorting.SortDistinct | src/californias_best.py:216 | `sorted(list(s))` of a set: the result is strictly ascending and has exactly the members of the input. |
| Sorting.SortDesc | src/generate_index.py:64 | `sort(key=…, reverse=True)`: the result is a permutation of the input and descending by key. Elements with equal keys keep their input order. |
| Clock.FormatIso | src/californias_best.py:206 | `%Y-%m-%dT%H:%M:%S`: always 19 characters. Clock.ParseFormatIso and Clock.IsoOrder state that it reads back and orders as time does. |
| Clock.ParseIso | src/generate_index.py:42 | The strict `strptime` parse: whatever it accepts is a valid date-time. Clock.FormatParseIso states that it accepts only ISO texts. |
| Clock.FormatStamp | favorites/californias_best.py:224 | `%Y%m%d_%H%M%S`: always 15 characters. Clock.StampInjective states that it is one-to-one. |
| Clock.FormatDisplay | src/generate_index.py:53 | `%B %d, %Y %I:%M:%S %p`. It has no contract of its own. Index.DisplayOrderNotChronological shows, on one pair, that its text order is not time order. |
| Clock.FormatModified | src/generate_index.py:54 | `%B %d, %Y %I:%M %p`. It has no contract of its own. Regenerate.IndexShowsRegeneration states what the index shows with it. |
| Clock.ParseFormatIso | src/californias_best.py:206 | A runtime formatted with `%Y-%m-%dT%H:%M:%S` parses back to the same date-time. |
| Clock.FormatParseIso | src/generate_index.py:42 | Every text the strict parse accepts is the ISO formatting of what it parses to. |
| Clock.IsoOrder | src/generate_index.py:42 | ISO runtime texts compare as strings exactly as the date-times compare in time. |
| Clock.StampInjective | favorites/californias_best.py:224 | Save times in different seconds give different `%Y%m%d_%H%M%S` stamps. |
| ReportStore.SanitizeName | src/californias_best.py:252 | `lower()`, then spaces to dashes, then commas dropped: no space or comma is left, and the name never grows. |
| ReportStore.BaseFilename | src/californias_best.py:252-253 | `<sanitised name>_<start>_to_<end>`. It has no contract of its own. ReportStore.BaseFilenameIsSafe states which characters it can hold. |
| ReportStore.FavoritesBaseFilename | favorites/californias_best.py:223-225 | The main script's base name, then `_` and the save-time stamp. It has no contract of its own. ReportStore.FavoritesNamesDiffer states that saves in different seconds get different names. |
| ReportStore.SanitizeNameEach | src/californias_best.py:252 | The three passes (lower, space to dash, drop commas) equal a single pass that maps each character on its own. |
| ReportStore.SanitizedIsSafe | src/californias_best.py:252 | A sanitised name holds no space, no comma and no upper-case ASCII letter. |
| ReportStore.SanitizeIdempotent | src/californias_best.py:252 | Sanitising an already-sanitised name changes nothing. |
| ReportStore.BaseFilenameIsSafe | src/californias_best.py:252-253 | A base filename contains a space or a comma exactly when one of the dates does. |
| ReportStore.SaveAs | src/californias_best.py:255-270 | The JSON file under the base name holds the summary. The HTML file is written exactly when the HTML is non-empty, as the generated-at comment, a newline and the body. Otherwise any earlier HTML stays. No other base name changes. |
| ReportStore.SaveRecAreaJson | src/californias_best.py:243-270 | The JSON path is `logs/<sanitised name>_<start>_to_<end>.json`. No HTML path is reported when no HTML is given. |
| ReportStore.SaveFavoritesJson | favorites/californias_best.py:214-242 | The same, with `_<save time stamp>` added to the base name. The stamp's clock reading and the HTML file's modification time are separate parameters. |
| ReportStore.SavedSummaryReadsBack | src/californias_best.py:255-259 | The JSON a save writes reads back as the summary itself. |
| ReportStore.FavoritesNamesDiffer | favorites/californias_best.py:223-225 | Two favorites saves in different seconds use different base names, whatever their area names. |
| ReportStore.FavoritesSavesKeepEarlier | favorites/californias_best.py:223-241 | A second favorites save in another second leaves the first save's files untouched, whatever its area name. |
| Storage.ToJson | src/californias_best.py:256-258 | The document `json.dump` writes for a summary, as `json.load` reads it. It has no contract of its own. Storage.JsonRoundTrip and Storage.FromJson state that it reads back. |
| Storage.LookupOwnName | src/regenerate_reports.py:52 | When base names are distinct, looking a file's own name up finds that file. |
| Storage.JsonRoundTrip | src/californias_best.py:256-258 | `json.load` of what `json.dump` wrote gives back every field of the summary. |
| Storage.FromJson | src/generate_index.py:36-38 | A loaded document is a full summary exactly when every key is present. It is then the dump of that summary. |
| Index.ProviderName | src/generate_index.py:47 | The provider's `name` when present. `Unknown Provider` when the key or the name is missing. A failure when the provider value is not an object. |
| Index.RuntimeOf | src/generate_index.py:41-44 | A missing runtime gives the fallback. A present one must parse, and the parsed value formats back to the stored text. |
| Index.BuildEntry | src/generate_index.py:29-61 | An entry is built exactly when both files exist and the JSON is readable, has a parseable runtime, a usable provider, a `rec_area_name` and a non-empty `date_counts`. The entry carries the `.html` filename, the area name, the provider, the HTML file's modification time, and the smallest and largest dates. Its runtime is the stored runtime parsed (or the fallback when there is none), shown in the display format. |
| Index.Entries | src/generate_index.py:28-61 | The unsorted entries are exactly those built from some file of the directory. |
| Index.EntriesAtMostJson | src/generate_index.py:25-34 | There are at most as many entries as JSON files. |
| Index.GenerateIndex | src/generate_index.py:25-64 | Both variants (the favorites one, favorites/generate_index.py:17-52, is `FavoritesIndex`). The index as written is a permutation of the entries, descending by display text, with equal texts in listing order. It holds at most as many entries as JSON files, and an entry is listed exactly when some file yields it. |
| Index.FavoritesIgnoresProvider | favorites/generate_index.py:38-46 | The favorites variant builds entries without a provider: an entry has no provider, and changing the stored provider changes nothing about the entry. |
| Index.DisplayOrderNotChronological | src/generate_index.py:53-64 | A runtime in March 2025 has a display text greater than a runtime in January 2026. |
| Index.IndexListsOlderFirst | favorites/generate_index.py:41-52 | Therefore, in the index as written, the March 2025 report is listed above the January 2026 one. |
| Index.GenerateIndexChronological | src/generate_index.py:63-64 | The intended index: the same entries, no entry older than one listed after it, and equal runtimes kept in listing order. |
| Index.ChronologicalListsNewerFirst | src/generate_index.py:63-64 | The chronological index lists the January 2026 report above the March 2025 one. |
| Regenerate.ContextFor | src/regenerate_reports.py:62-66 | The template gets the stored summary alone as `summaries`. `start_date` and `end_date` are the smallest and largest date keys, so start is at most end. |
| Regenerate.NewHtml | src/regenerate_reports.py:66-75 | The HTML written is the regenerated-at comment with the ISO time of the clock reading taken for this file, a newline, then the render of such a context. Its modification time is the one given for this file. |
| Regenerate.RegenerateFiles | src/regenerate_reports.py:56-81 | The JSON file is never changed. HTML is written exactly when the JSON is readable and has a non-empty `date_counts`, and it is then the regenerated HTML for this file. Otherwise the files stay exactly as they were. |
| Regenerate.RegenerateDir | src/regenerate_reports.py:55-81 | The loop over the directory: the same base names in the same order, each file replaced by what one iteration makes of it. |
| Regenerate.OutcomeOf | src/regenerate_reports.py:55-81 | A JSON file is skipped exactly when it is unreadable, lacks `date_counts` or has an empty one, with the matching reason. One without `rec_area_name` is written and then reported as failed. A written outcome also carries the HTML written. The text of the log line (the area name and path, or the exception) is not modelled. |
| Regenerate.Outcomes | src/regenerate_reports.py:52-81 | One log outcome per JSON file. Each outcome is that of some file of the directory, and every JSON file's outcome is logged. |
| Regenerate.RegenerateReports | src/regenerate_reports.py:43-86 | The directory afterwards is the loop's result, with the same base names. The log is the loop's outcomes, one per JSON file. The index is then rebuilt by `generate_index_html` as written: descending by display text. It is a permutation of the entries the regenerated directory yields, so each is listed once, and entries with equal display text keep their directory order. |
| Regenerate.RegenerateReportsChronological | src/regenerate_reports.py:43-86 | The same run, with the same directory and log, and the corrected index: no entry older than one listed after it. It is a permutation of the entries the regenerated directory yields, and entries with equal runtime text keep their directory order. |
| Regenerate.RegenerateIdempotent | src/regenerate_reports.py:55-81 | A second run with the same clock readings and modification times changes nothing. |
| Regenerate.RegeneratedOwnFile | src/regenerate_reports.py:52-75 | When base names are distinct, as `glob` lists them, the files stored under a file's name after the loop are made from that file alone, with that file's own clock reading and modification time. |
| Regenerate.LookupRegenerated | src/regenerate_reports.py:73 | The HTML goes under the JSON file's own base name: looking a base name up afterwards gives the regenerated version of what was there. |
| Regenerate.SavedReportRegenerates | src/regenerate_reports.py:56-77 | A summary the main script saved with at least one date regenerates cleanly: new HTML with the modification time given for its base name, the JSON kept. |
| Regenerate.RegeneratedListable | src/regenerate_reports.py:83-85 | After the loop, the index can list a report exactly when its JSON alone qualifies, whether or not it had HTML before. |
| Regenerate.IndexShowsRegeneration | src/regenerate_reports.py:83-85 | Every entry of the rebuilt index belongs to a report the loop rewrote, and shows that report's own HTML modification time, formatted to the minute. |
| Regenerate.RegeneratedAllListed | src/regenerate_reports.py:83-85 | Every report whose JSON qualifies is listed in the rebuilt index. |

## Left out

- File I/O, `mkdir`, `print` and the index scripts' logging are not modelled. The regeneration log is modelled as one outcome per JSON file (`Regenerate.OutcomeOf`, `Regenerate.Outcomes`), but not the log's text. A directory is a sequence of base names with their JSON and HTML files, in `glob` order.
- Template loading and Jinja2 rendering are a parameter (`Env.render`), and rendering always succeeds. In the source, `create_html_report` runs inside the per-file `try`, so a template error on one summary skips that file and writes no HTML for it. Regenerate.OutcomeOf's "skipped exactly when" and Regenerate.RegenerateFiles' "written exactly when" hold only because the model's rendering cannot fail. A missing template, which would make every file fail, is not modelled either.
- The written `index.html` is not modelled: the index is the sorted list of entries the template receives.
- `send_email`, `create_html_email`, `main`, `argparse` and `get_default_dates` are left out. They are mail, CLI and clock plumbing.
- The search backend is left out: matches are an input sequence.
- `datetime.now()` and the HTML files' modification times are parameters. The regeneration run takes both per base name (`Env.clock`, `Env.writtenAt`), since `glob` lists each base name once.
- Clock.StampInjective: a date-time carries no fraction of a second. Two favorites saves within the same second get the same `%Y%m%d_%H%M%S` stamp, and the second overwrites the first. The model's distinct save times are distinct seconds.
- Clock.ParseIso: Python's `strptime` matches the format case-insensitively (it accepts `2025-06-13t15:30:45`), accepts unpadded numeric fields and a space-padded day, and allows years below 1000. The model parses only the zero-padded `%Y-%m-%dT%H:%M:%S` form with an upper-case `T`, for years 1000 to 9999.
- Index.RuntimeOf: a stored runtime in one of those other forms is rejected by the model, where the source would list it. The source also computes the fallback `datetime.now() - timedelta(days=1)` anew for each runtime-less file. The model uses one fallback for the whole index build. Two runtime-less reports read across a second boundary can get different display texts in Python, and so can swap places in the sort. In the model their texts are identical.
- ReportStore.SanitizeName: `str.lower()` is modelled for ASCII letters only.
- JSON values of the wrong type (for example a list as `date_counts`) are not modelled. Every key may be missing, and a file may be unreadable.
- The search-backend class named by each registry entry is not modelled, and neither is the text of the `ValueError` message.
- Index.IndexEntry carries the parsed runtime (`at`) beside its display text. It is used only to state the ordering results. Index.BuildEntry ties it to the stored runtime or the fallback.
- Latitude and longitude are kept as plain `real` pairs and only ever copied.

## Findings

| source | as written | input that shows it | evidently intended | confidence | as-written member | corrected member |
|---|---|---|---|---|---|---|
| src/generate_index.py:64 | The index is sorted in reverse by comparing the display texts (`%B %d, %Y %I:%M:%S %p`) as strings, which puts month names in reverse alphabetical order (March above January). | Runtimes 2025-03-01T00:00:00 and 2026-01-05T00:00:00 display as "March 01, 2025 …" and "January 05, 2026 …". The older report is listed first. | Sort by the runtime itself, newest first. | not executed | Index.IndexListsOlderFirst | Index.GenerateIndexChronological |
| favorites/generate_index.py:52 | The same sort by display text. | The same two runtimes. | Sort by the runtime itself, newest first. | not executed | Index.IndexListsOlderFirst | Index.GenerateIndexChronological |

`Regenerate.RegenerateReports` rebuilds its index as written. `Regenerate.RegenerateReportsChronological` is the same run with `Index.GenerateIndexChronological`.

=== FILE: Aggregation.dfy ===
/** The fold at the heart of `build_results_summary`: availability matches are
    tallied, in input order, into per-date counts, a facility -> campsite tree, and
    the set of values seen for each amenity. The reference functions at the end say,
    independently of the fold, what each part of the tally should hold. */
module Aggregation {
  import opened Common
  import opened AssocList
  import Clock

  /** A campsite position; latitude and longitude are floats in the source. */
  datatype Location = Location(latitude: real, longitude: real)

  /** One `campsite_attributes` entry. An empty string stands for both "" and `None`. */
  datatype Attribute = Attribute(name: string, value: string)

  /** One availability record from the search backend (`AvailableCampsite`). Ids are
      given already converted with `str(...)`; an empty attribute list stands for
      both `[]` and `None`. */
  datatype Match = Match(
    facilityId: string,
    facilityName: string,
    campsiteId: string,
    campsiteSiteName: string,
    bookingDate: Clock.Timestamp,
    location: Option<Location>,
    attributes: seq<Attribute>,
    bookingUrl: string)

  /** An entry of a facility's `campsites` dict. */
  datatype Campsite = Campsite(
    campsiteId: string,
    campsiteName: string,
    dates: seq<string>,
    bookingUrl: string,
    location: Option<Location>,
    amenities: seq<(string, string)>)

  /** An entry of `available_sites`. */
  datatype Facility = Facility(
    campgroundId: string,
    campgroundName: string,
    location: Option<Location>,
    campsites: seq<(string, Campsite)>)

  /** The three accumulators of the loop: `date_counts`, `available_sites` and
      `all_amenities` (whose values are still sets, held as duplicate-free lists). */
  datatype Tally = Tally(
    dateCounts: seq<(string, nat)>,
    sites: seq<(string, Facility)>,
    amenityValues: seq<(string, seq<string>)>)

  /** `match.booking_date.strftime("%Y-%m-%d")`. */
  function DateKey(m: Match): string {
    Clock.FormatDate(m.bookingDate)
  }

  /** `attr.attribute_name and attr.attribute_value`: only attributes with a
      non-empty name and value are recorded. */
  predicate Recorded(a: Attribute) {
    a.name != "" && a.value != ""
  }

  // ---------------------------------------------------------------------------
  // One loop iteration

  /** The facility entry created on the first match for a facility. */
  function NewFacility(m: Match): Facility {
    Facility(m.facilityId, m.facilityName, None, [])
  }

  /** The campsite entry created on the first match for a campsite. */
  function NewCampsite(m: Match): Campsite {
    Campsite(m.campsiteId, m.campsiteSiteName, [], m.bookingUrl, None, [])
  }

  /** `amenities[name] = value` for each recorded attribute, in list order. */
  function ApplyAttributes(amenities: seq<(string, string)>, attrs: seq<Attribute>): seq<(string, string)> {
    if |attrs| == 0 then amenities
    else
      var p := ApplyAttributes(amenities, Init(attrs));
      if Recorded(Last(attrs)) then Put(p, Last(attrs).name, Last(attrs).value) else p
  }

  /** `s.add(v)` on a set held as a duplicate-free list. */
  function AddUnique(xs: seq<string>, v: string): seq<string> {
    if v in xs then xs else xs + [v]
  }

  /** `all_amenities[name].add(value)` for each recorded attribute, in list order. */
  function CollectValues(values: seq<(string, seq<string>)>, attrs: seq<Attribute>): seq<(string, seq<string>)> {
    if |attrs| == 0 then values
    else
      var p := CollectValues(values, Init(attrs));
      var a := Last(attrs);
      if Recorded(a) then Put(p, a.name, AddUnique(Lookup(p, a.name).GetOr([]), a.value)) else p
  }

  /** What one match does to its campsite entry: append the date, take the location
      when the match has one, record the attributes. */
  function UpdateCampsite(c: Campsite, m: Match): Campsite {
    c.(dates := c.dates + [DateKey(m)],
       location := if m.location.Some? then m.location else c.location,
       amenities := ApplyAttributes(c.amenities, m.attributes))
  }

  /** What one match does to its facility entry: set the location if still unset,
      and update (or create) the campsite entry. */
  function UpdateFacility(f: Facility, m: Match): Facility {
    var c := Lookup(f.campsites, m.campsiteSiteName).GetOr(NewCampsite(m));
    f.(location := if m.location.Some? && f.location.None? then m.location else f.location,
       campsites := Put(f.campsites, m.campsiteSiteName, UpdateCampsite(c, m)))
  }

  /** `date_counts[date]` on a `defaultdict(int)`: a missing date reads as 0. */
  function CountOf(counts: seq<(string, nat)>, date: string): nat {
    match Lookup(counts, date)
    case Some(n) => n
    case None => 0
  }

  /** `date_counts[date] += 1` on a `defaultdict(int)`. */
  function AddDate(counts: seq<(string, nat)>, date: string): seq<(string, nat)> {
    Put<string, nat>(counts, date, CountOf(counts, date) + 1)
  }

  function UpdateSites(sites: seq<(string, Facility)>, m: Match): seq<(string, Facility)> {
    var f := Lookup(sites, m.facilityName).GetOr(NewFacility(m));
    Put(sites, m.facilityName, UpdateFacility(f, m))
  }

  /** One iteration of the `for match in matches` loop. */
  function Step(t: Tally, m: Match): Tally {
    Tally(AddDate(t.dateCounts, DateKey(m)),
          UpdateSites(t.sites, m),
          CollectValues(t.amenityValues, m.attributes))
  }

  /** The whole loop: a left fold of `Step` over the matches in input order. */
  function Fold(ms: seq<Match>): Tally {
    if |ms| == 0 then Tally([], [], [])
    else Step(Fold(Init(ms)), Last(ms))
  }

  // ---------------------------------------------------------------------------
  // Reference definitions, stated over the input matches only

  /** The booking dates of `ms`, in order, duplicates kept. */
  function DateKeys(ms: seq<Match>): seq<string> {
    if |ms| == 0 then [] else DateKeys(Init(ms)) + [DateKey(Last(ms))]
  }

  /** How many matches fall on `date`. */
  function CountOn(ms: seq<Match>, date: string): nat {
    if |ms| == 0 then 0 else CountOn(Init(ms), date) + (if DateKey(Last(ms)) == date then 1 else 0)
  }

  function FacilityNames(ms: seq<Match>): seq<string> {
    if |ms| == 0 then [] else FacilityNames(Init(ms)) + [Last(ms).facilityName]
  }

  function SiteNames(ms: seq<Match>): seq<string> {
    if |ms| == 0 then [] else SiteNames(Init(ms)) + [Last(ms).campsiteSiteName]
  }

  /** The matches for facility `f`, in order. */
  function AtFacility(ms: seq<Match>, f: string): seq<Match> {
    if |ms| == 0 then []
    else AtFacility(Init(ms), f) + (if Last(ms).facilityName == f then [Last(ms)] else [])
  }

  /** The matches for campsite `s`, in order. */
  function AtSite(ms: seq<Match>, s: string): seq<Match> {
    if |ms| == 0 then []
    else AtSite(Init(ms), s) + (if Last(ms).campsiteSiteName == s then [Last(ms)] else [])
  }

  /** The location of the first match that carries one. */
  function FirstLocation(ms: seq<Match>): Option<Location> {
    if |ms| == 0 then None
    else if FirstLocation(Init(ms)).Some? then FirstLocation(Init(ms))
    else Last(ms).location
  }

  /** The location of the last match that carries one. */
  function LastLocation(ms: seq<Match>): Option<Location> {
    if |ms| == 0 then None
    else if Last(ms).location.Some? then Last(ms).location
    else LastLocation(Init(ms))
  }

  /** The recorded attributes of a list of attributes, in order. */
  function RecordedOf(attrs: seq<Attribute>): seq<Attribute> {
    if |attrs| == 0 then []
    else RecordedOf(Init(attrs)) + (if Recorded(Last(attrs)) then [Last(attrs)] else [])
  }

  /** The recorded attributes of all of `ms`, match by match, in order. */
  function RecordedAttributes(ms: seq<Match>): seq<Attribute> {
    if |ms| == 0 then [] else RecordedAttributes(Init(ms)) + RecordedOf(Last(ms).attributes)
  }

  function AttributeNames(attrs: seq<Attribute>): seq<string> {
    if |attrs| == 0 then [] else AttributeNames(Init(attrs)) + [Last(attrs).name]
  }

  /** The value of the last attribute named `n`. */
  function LastValue(attrs: seq<Attribute>, n: string): Option<string> {
    if |attrs| == 0 then None
    else if Last(attrs).name == n then Some(Last(attrs).value)
    else LastValue(Init(attrs), n)
  }

  function DatesOf(c: Campsite): nat {
    |c.dates|
  }

  /** The number of dates held by a facility's campsites. */
  function FacilityDates(f: Facility): nat {
    SumBy(f.campsites, DatesOf)
  }

  function Count(n: nat): nat {
    n
  }
}

=== FILE: AggregationFacts.dfy ===
/** What the fold of `build_results_summary` computes, proved against the reference
    definitions of `Aggregation` by induction over the matches. */
module AggregationFacts {
  import opened Common
  import opened AssocList
  import opened Aggregation

  // ---------------------------------------------------------------------------
  // date_counts

  /** `counts` holds, for every date seen, the number of matches on it, with dates in
      first-seen order. */
  ghost predicate CountsAgree(ms: seq<Match>, counts: seq<(string, nat)>) {
    && Keys(counts) == Dedup(DateKeys(ms))
    && forall d :: Lookup(counts, d) == if CountOn(ms, d) == 0 then None else Some(CountOn(ms, d))
  }

  /** Every match increments exactly one date's count: the counts are exact, and they
      add up to the number of matches. */
  lemma {:induction false} DateCountsAgree(ms: seq<Match>)
    ensures CountsAgree(ms, Fold(ms).dateCounts)
    ensures SumBy(Fold(ms).dateCounts, Count) == |ms|
  {
    DateCountsExact(ms);
    DateCountsTotal(ms);
  }

  lemma {:induction false} DateCountsExact(ms: seq<Match>)
    ensures CountsAgree(ms, Fold(ms).dateCounts)
  {
    if |ms| > 0 {
      var c := Fold(Init(ms)).dateCounts;
      var d := DateKey(Last(ms));
      FoldDates(ms);
      DateCountsExact(Init(ms));
      AddDateKeys(c, DateKeys(Init(ms)), d);
      AddDateCounts(ms, c);
    }
  }

  lemma {:induction false} DateCountsTotal(ms: seq<Match>)
    ensures SumBy(Fold(ms).dateCounts, Count) == |ms|
  {
    if |ms| > 0 {
      FoldDates(ms);
      DateCountsTotal(Init(ms));
      AddDateSum(Fold(Init(ms)).dateCounts, DateKey(Last(ms)));
    }
  }

  /** The loop's last iteration counts the last match's date. */
  lemma {:induction false} FoldDates(ms: seq<Match>)
    requires |ms| > 0
    ensures Fold(ms).dateCounts == AddDate(Fold(Init(ms)).dateCounts, DateKey(Last(ms)))
    ensures |Init(ms)| == |ms| - 1
  {
  }

  lemma {:induction false} AddDateSum(c: seq<(string, nat)>, d: string)
    ensures SumBy(AddDate(c, d), Count) == SumBy(c, Count) + 1
  {
    IncrementSumBy<string, nat>(c, d, CountOf(c, d) + 1, Count);
  }

  lemma {:induction false} AddDateKeys(c: seq<(string, nat)>, dates: seq<string>, d: string)
    requires Keys(c) == Dedup(dates)
    ensures Keys(AddDate(c, d)) == Dedup(dates + [d])
  {
    DedupSnoc(dates, d);
  }

  /** Adding a date touches that date's count only, raising it by one. */
  lemma {:induction false} AddDateAt(c: seq<(string, nat)>, d: string, e: string)
    ensures e != d ==> Lookup(AddDate(c, d), e) == Lookup(c, e)
    ensures e == d ==> Lookup(AddDate(c, d), e) == Some(if Lookup(c, d).Some? then Lookup(c, d).value + 1 else 1)
  {
  }

  lemma {:induction false} AddDateCounts(ms: seq<Match>, c: seq<(string, nat)>)
    requires |ms| > 0
    requires forall d :: Lookup(c, d) == if CountOn(Init(ms), d) == 0 then None else Some(CountOn(Init(ms), d))
    ensures forall d :: Lookup(AddDate(c, DateKey(Last(ms))), d) == if CountOn(ms, d) == 0 then None else Some(CountOn(ms, d))
  {
    forall e
      ensures Lookup(AddDate(c, DateKey(Last(ms))), e) == if CountOn(ms, e) == 0 then None else Some(CountOn(ms, e))
    {
      CountAt(ms, c, e);
    }
  }

  lemma {:induction false} CountAt(ms: seq<Match>, c: seq<(string, nat)>, e: string)
    requires |ms| > 0
    requires Lookup(c, e) == if CountOn(Init(ms), e) == 0 then None else Some(CountOn(Init(ms), e))
    requires var d := DateKey(Last(ms)); Lookup(c, d) == if CountOn(Init(ms), d) == 0 then None else Some(CountOn(Init(ms), d))
    ensures Lookup(AddDate(c, DateKey(Last(ms))), e) == if CountOn(ms, e) == 0 then None else Some(CountOn(ms, e))
  {
    var n := CountOn(Init(ms), e);
    assert CountOn(ms, e) == n + (if DateKey(Last(ms)) == e then 1 else 0);
    AddDateAt(c, DateKey(Last(ms)), e);
  }

  // ---------------------------------------------------------------------------
  // amenities

  /** `amen` maps every recorded attribute name, in first-seen order, to the value of
      the last attribute with that name. */
  ghost predicate AmenitiesAgree(attrs: seq<Attribute>, amen: seq<(string, string)>) {
    && Keys(amen) == Dedup(AttributeNames(attrs))
    && forall n :: Lookup(amen, n) == LastValue(attrs, n)
  }

  lemma {:induction false} AttributeSnoc(xs: seq<Attribute>, a: Attribute)
    ensures AttributeNames(xs + [a]) == AttributeNames(xs) + [a.name]
    ensures forall n :: LastValue(xs + [a], n) == if a.name == n then Some(a.value) else LastValue(xs, n)
  {
    InitLast(xs, a);
  }

  lemma {:induction false} ApplyAttributesAgree(attrs: seq<Attribute>, amen: seq<(string, string)>, more: seq<Attribute>)
    requires AmenitiesAgree(attrs, amen)
    ensures AmenitiesAgree(attrs + RecordedOf(more), ApplyAttributes(amen, more))
    decreases |more|
  {
    if |more| == 0 {
      assert attrs + RecordedOf(more) == attrs;
    } else {
      ApplyAttributesAgree(attrs, amen, Init(more));
      var a := Last(more);
      var xs := attrs + RecordedOf(Init(more));
      if Recorded(a) {
        assert attrs + RecordedOf(more) == xs + [a];
        AmenityStep(xs, ApplyAttributes(amen, Init(more)), a);
      } else {
        assert attrs + RecordedOf(more) == xs;
      }
    }
  }

  lemma {:induction false} AmenityStep(xs: seq<Attribute>, amen: seq<(string, string)>, a: Attribute)
    requires AmenitiesAgree(xs, amen)
    ensures AmenitiesAgree(xs + [a], Put(amen, a.name, a.value))
  {
    AmenityKeysStep(xs, amen, a);
    AmenityValuesStep(xs, amen, a);
  }

  lemma {:induction false} AmenityKeysStep(xs: seq<Attribute>, amen: seq<(string, string)>, a: Attribute)
    requires Keys(amen) == Dedup(AttributeNames(xs))
    ensures Keys(Put<string, string>(amen, a.name, a.value)) == Dedup(AttributeNames(xs + [a]))
  {
    AttributeSnoc(xs, a);
    DedupSnoc(AttributeNames(xs), a.name);
  }

  lemma {:induction false} AmenityValuesStep(xs: seq<Attribute>, amen: seq<(string, string)>, a: Attribute)
    requires forall n :: Lookup(amen, n) == LastValue(xs, n)
    ensures forall n :: Lookup(Put<string, string>(amen, a.name, a.value), n) == LastValue(xs + [a], n)
  {
    AttributeSnoc(xs, a);
  }

  // ---------------------------------------------------------------------------
  // available_sites

  /** `c` is the campsite entry the loop should have built from `xs`, the matches of
      one campsite: ids and booking URL from the first, every date in order, the last
      location seen, and the amenities. */
  ghost predicate CampsiteAgrees(xs: seq<Match>, c: Campsite) {
    && |xs| > 0
    && c.campsiteId == xs[0].campsiteId
    && c.campsiteName == xs[0].campsiteSiteName
    && c.bookingUrl == xs[0].bookingUrl
    && c.dates == DateKeys(xs)
    && c.location == LastLocation(xs)
    && AmenitiesAgree(RecordedAttributes(xs), c.amenities)
  }

  /** `cs` holds one entry per campsite of `xs` (the matches of one facility), in
      first-seen order, each agreeing with that campsite's matches. */
  ghost predicate CampsitesAgree(xs: seq<Match>, cs: seq<(string, Campsite)>) {
    && Keys(cs) == Dedup(SiteNames(xs))
    && forall s :: s in SiteNames(xs) ==> Lookup(cs, s).Some? && CampsiteAgrees(AtSite(xs, s), Lookup(cs, s).value)
  }

  /** `f` is the facility entry the loop should have built from `xs`, the matches of
      one facility: id and name from the first, the first location seen, and the
      campsites. */
  ghost predicate FacilityAgrees(xs: seq<Match>, f: Facility) {
    && |xs| > 0
    && f.campgroundId == xs[0].facilityId
    && f.campgroundName == xs[0].facilityName
    && f.location == FirstLocation(xs)
    && CampsitesAgree(xs, f.campsites)
  }

  /** `sites` holds one entry per facility of `ms`, in first-seen order, each agreeing
      with that facility's matches. */
  ghost predicate SitesAgree(ms: seq<Match>, sites: seq<(string, Facility)>) {
    && Keys(sites) == Dedup(FacilityNames(ms))
    && forall f :: f in FacilityNames(ms) ==> Lookup(sites, f).Some? && FacilityAgrees(AtFacility(ms, f), Lookup(sites, f).value)
  }

  lemma {:induction false} AtSiteEmpty(xs: seq<Match>, s: string)
    requires s !in SiteNames(xs)
    ensures AtSite(xs, s) == []
    decreases |xs|
  {
    if |xs| > 0 {
      AtSiteEmpty(Init(xs), s);
    }
  }

  lemma {:induction false} AtFacilityEmpty(ms: seq<Match>, f: string)
    requires f !in FacilityNames(ms)
    ensures AtFacility(ms, f) == []
    decreases |ms|
  {
    if |ms| > 0 {
      AtFacilityEmpty(Init(ms), f);
    }
  }

  lemma {:induction false} CampsiteSnoc(xs: seq<Match>, m: Match)
    ensures DateKeys(xs + [m]) == DateKeys(xs) + [DateKey(m)]
    ensures RecordedAttributes(xs + [m]) == RecordedAttributes(xs) + RecordedOf(m.attributes)
    ensures LastLocation(xs + [m]) == if m.location.Some? then m.location else LastLocation(xs)
    ensures FirstLocation(xs + [m]) == if FirstLocation(xs).Some? then FirstLocation(xs) else m.location
    ensures (xs + [m])[0] == if |xs| == 0 then m else xs[0]
  {
    InitLast(xs, m);
  }

  lemma {:induction false} SiteSnoc(xs: seq<Match>, m: Match, s: string)
    ensures SiteNames(xs + [m]) == SiteNames(xs) + [m.campsiteSiteName]
    ensures AtSite(xs + [m], s) == AtSite(xs, s) + (if m.campsiteSiteName == s then [m] else [])
  {
    InitLast(xs, m);
  }

  lemma {:induction false} FacilitySnoc(ms: seq<Match>, f: string)
    requires |ms| > 0
    ensures FacilityNames(ms) == FacilityNames(Init(ms)) + [Last(ms).facilityName]
    ensures AtFacility(ms, f) == AtFacility(Init(ms), f) + (if Last(ms).facilityName == f then [Last(ms)] else [])
  {
  }

  lemma {:induction false} CampsiteStep(xs: seq<Match>, m: Match, c: Campsite)
    requires if |xs| == 0 then c == NewCampsite(m) else CampsiteAgrees(xs, c)
    ensures CampsiteAgrees(xs + [m], UpdateCampsite(c, m))
  {
    CampsiteSnoc(xs, m);
    if |xs| == 0 {
      assert AmenitiesAgree([], []);
      assert RecordedAttributes(xs) == [];
    }
    ApplyAttributesAgree(RecordedAttributes(xs), c.amenities, m.attributes);
  }

  /** The campsite entry the loop leaves for `m`'s campsite. */
  function Touched(cs: seq<(string, Campsite)>, m: Match): seq<(string, Campsite)> {
    Put(cs, m.campsiteSiteName, UpdateCampsite(Lookup(cs, m.campsiteSiteName).GetOr(NewCampsite(m)), m))
  }

  lemma {:induction false} CampsiteAt(xs: seq<Match>, m: Match, cs: seq<(string, Campsite)>, s': string)
    requires CampsitesAgree(xs, cs)
    requires s' in SiteNames(xs + [m])
    ensures Lookup(Touched(cs, m), s').Some?
    ensures CampsiteAgrees(AtSite(xs + [m], s'), Lookup(Touched(cs, m), s').value)
  {
    SiteSnoc(xs, m, s');
    if s' == m.campsiteSiteName {
      CampsiteHere(xs, m, cs);
    } else {
      CampsiteElsewhere(xs, m, cs, s');
    }
  }

  lemma {:induction false} CampsiteHere(xs: seq<Match>, m: Match, cs: seq<(string, Campsite)>)
    requires CampsitesAgree(xs, cs)
    ensures Lookup(Touched(cs, m), m.campsiteSiteName).Some?
    ensures CampsiteAgrees(AtSite(xs + [m], m.campsiteSiteName), Lookup(Touched(cs, m), m.campsiteSiteName).value)
  {
    var s := m.campsiteSiteName;
    var c := Lookup(cs, s).GetOr(NewCampsite(m));
    SiteSnoc(xs, m, s);
    if s in SiteNames(xs) {
      CampsiteStep(AtSite(xs, s), m, c);
    } else {
      AtSiteEmpty(xs, s);
      CampsiteStep([], m, c);
    }
  }

  lemma {:induction false} CampsiteElsewhere(xs: seq<Match>, m: Match, cs: seq<(string, Campsite)>, s': string)
    requires CampsitesAgree(xs, cs)
    requires s' in SiteNames(xs) && s' != m.campsiteSiteName
    ensures Lookup(Touched(cs, m), s') == Lookup(cs, s')
    ensures AtSite(xs + [m], s') == AtSite(xs, s')
  {
    SiteSnoc(xs, m, s');
  }

  lemma {:induction false} CampsitesStep(xs: seq<Match>, m: Match, cs: seq<(string, Campsite)>)
    requires CampsitesAgree(xs, cs)
    ensures CampsitesAgree(xs + [m], Touched(cs, m))
  {
    SiteSnoc(xs, m, m.campsiteSiteName);
    DedupSnoc(SiteNames(xs), m.campsiteSiteName);
    forall s' | s' in SiteNames(xs + [m])
      ensures Lookup(Touched(cs, m), s').Some? && CampsiteAgrees(AtSite(xs + [m], s'), Lookup(Touched(cs, m), s').value)
    {
      CampsiteAt(xs, m, cs, s');
    }
  }

  lemma {:induction false} FacilityStep(xs: seq<Match>, m: Match, f: Facility)
    requires if |xs| == 0 then f == NewFacility(m) else FacilityAgrees(xs, f)
    ensures FacilityAgrees(xs + [m], UpdateFacility(f, m))
  {
    CampsiteSnoc(xs, m);
    if |xs| == 0 {
      assert CampsitesAgree(xs, []);
    }
    CampsitesStep(xs, m, f.campsites);
  }

  lemma {:induction false} SiteAt(ms: seq<Match>, sites: seq<(string, Facility)>, f': string)
    requires |ms| > 0 && SitesAgree(Init(ms), sites)
    requires f' in FacilityNames(ms)
    ensures Lookup(UpdateSites(sites, Last(ms)), f').Some?
    ensures FacilityAgrees(AtFacility(ms, f'), Lookup(UpdateSites(sites, Last(ms)), f').value)
  {
    FacilitySnoc(ms, f');
    if f' == Last(ms).facilityName {
      SiteHere(ms, sites);
    } else {
      SiteElsewhere(ms, sites, f');
    }
  }

  lemma {:induction false} SiteHere(ms: seq<Match>, sites: seq<(string, Facility)>)
    requires |ms| > 0 && SitesAgree(Init(ms), sites)
    ensures Lookup(UpdateSites(sites, Last(ms)), Last(ms).facilityName).Some?
    ensures FacilityAgrees(AtFacility(ms, Last(ms).facilityName), Lookup(UpdateSites(sites, Last(ms)), Last(ms).facilityName).value)
  {
    var m := Last(ms);
    var f := m.facilityName;
    var fac := Lookup(sites, f).GetOr(NewFacility(m));
    FacilitySnoc(ms, f);
    if f in FacilityNames(Init(ms)) {
      FacilityStep(AtFacility(Init(ms), f), m, fac);
    } else {
      AtFacilityEmpty(Init(ms), f);
      FacilityStep([], m, fac);
    }
  }

  lemma {:induction false} SiteElsewhere(ms: seq<Match>, sites: seq<(string, Facility)>, f': string)
    requires |ms| > 0
    requires f' != Last(ms).facilityName
    ensures Lookup(UpdateSites(sites, Last(ms)), f') == Lookup(sites, f')
    ensures AtFacility(ms, f') == AtFacility(Init(ms), f')
  {
    FacilitySnoc(ms, f');
  }

  lemma {:induction false} SitesStep(ms: seq<Match>, sites: seq<(string, Facility)>)
    requires |ms| > 0 && SitesAgree(Init(ms), sites)
    ensures SitesAgree(ms, UpdateSites(sites, Last(ms)))
  {
    FacilitySnoc(ms, Last(ms).facilityName);
    DedupSnoc(FacilityNames(Init(ms)), Last(ms).facilityName);
    forall f' | f' in FacilityNames(ms)
      ensures Lookup(UpdateSites(sites, Last(ms)), f').Some?
      ensures FacilityAgrees(AtFacility(ms, f'), Lookup(UpdateSites(sites, Last(ms)), f').value)
    {
      SiteAt(ms, sites, f');
    }
  }

  /** The facility tree the loop builds is the one the reference definitions
      describe. */
  lemma {:induction false} SitesAgreeFold(ms: seq<Match>)
    ensures SitesAgree(ms, Fold(ms).sites)
  {
    if |ms| > 0 {
      SitesAgreeFold(Init(ms));
      SitesStep(ms, Fold(Init(ms)).sites);
    }
  }

  // ---------------------------------------------------------------------------
  // Every match adds exactly one date to exactly one campsite

  lemma {:induction false} UpdateFacilityDates(f: Facility, m: Match)
    ensures FacilityDates(UpdateFacility(f, m)) == FacilityDates(f) + 1
  {
    var c := Lookup(f.campsites, m.campsiteSiteName).GetOr(NewCampsite(m));
    PutSumBy(f.campsites, m.campsiteSiteName, UpdateCampsite(c, m), DatesOf);
  }

  /** Summed over all campsites, the date lists hold one entry per match. */
  lemma {:induction false} TotalDates(ms: seq<Match>)
    ensures SumBy(Fold(ms).sites, FacilityDates) == |ms|
  {
    if |ms| > 0 {
      TotalDates(Init(ms));
      var m := Last(ms);
      var sites := Fold(Init(ms)).sites;
      var f := Lookup(sites, m.facilityName).GetOr(NewFacility(m));
      UpdateFacilityDates(f, m);
      PutSumBy(sites, m.facilityName, UpdateFacility(f, m), FacilityDates);
    }
  }

  // ---------------------------------------------------------------------------
  // all_amenities (before sorting)

  /** `vals` maps every recorded attribute name, in first-seen order, to a
      duplicate-free list of exactly the values recorded for it. */
  ghost predicate ValuesAgree(attrs: seq<Attribute>, vals: seq<(string, seq<string>)>) {
    && Keys(vals) == Dedup(AttributeNames(attrs))
    && (forall n, v :: v in Lookup(vals, n).GetOr([]) <==> Attribute(n, v) in attrs)
    && (forall n :: Lookup(vals, n).Some? ==> Distinct(Lookup(vals, n).value))
  }

  predicate Distinct(xs: seq<string>) {
    forall i, j :: 0 <= i < j < |xs| ==> xs[i] != xs[j]
  }

  lemma {:induction false} CollectValuesAgree(attrs: seq<Attribute>, vals: seq<(string, seq<string>)>, more: seq<Attribute>)
    requires ValuesAgree(attrs, vals)
    ensures ValuesAgree(attrs + RecordedOf(more), CollectValues(vals, more))
    decreases |more|
  {
    if |more| == 0 {
      assert attrs + RecordedOf(more) == attrs;
    } else {
      CollectValuesAgree(attrs, vals, Init(more));
      var a := Last(more);
      var xs := attrs + RecordedOf(Init(more));
      if Recorded(a) {
        assert attrs + RecordedOf(more) == xs + [a];
        ValuesStep(xs, CollectValues(vals, Init(more)), a);
      } else {
        assert attrs + RecordedOf(more) == xs;
      }
    }
  }

  /** The entry `all_amenities[a.name]` after adding `a.value`. */
  function AddValue(vals: seq<(string, seq<string>)>, a: Attribute): seq<(string, seq<string>)> {
    Put(vals, a.name, AddUnique(Lookup(vals, a.name).GetOr([]), a.value))
  }

  lemma {:induction false} ValuesStep(xs: seq<Attribute>, vals: seq<(string, seq<string>)>, a: Attribute)
    requires ValuesAgree(xs, vals)
    ensures ValuesAgree(xs + [a], AddValue(vals, a))
  {
    AttributeSnoc(xs, a);
    DedupSnoc(AttributeNames(xs), a.name);
    ValuesStepMembers(xs, vals, a);
    ValuesStepDistinct(vals, a);
  }

  lemma {:induction false} ValuesStepMembers(xs: seq<Attribute>, vals: seq<(string, seq<string>)>, a: Attribute)
    requires forall n, v :: v in Lookup(vals, n).GetOr([]) <==> Attribute(n, v) in xs
    ensures forall n, v :: v in Lookup(AddValue(vals, a), n).GetOr([]) <==> Attribute(n, v) in xs + [a]
  {
    forall n, v
      ensures v in Lookup(AddValue(vals, a), n).GetOr([]) <==> Attribute(n, v) in xs + [a]
    {
      ValueAt(xs, vals, a, n, v);
    }
  }

  lemma {:induction false} ValuesStepDistinct(vals: seq<(string, seq<string>)>, a: Attribute)
    requires forall n :: Lookup(vals, n).Some? ==> Distinct(Lookup(vals, n).value)
    ensures forall n :: Lookup(AddValue(vals, a), n).Some? ==> Distinct(Lookup(AddValue(vals, a), n).value)
  {
    forall n | Lookup(AddValue(vals, a), n).Some?
      ensures Distinct(Lookup(AddValue(vals, a), n).value)
    {
      if n == a.name {
        AddUniqueDistinct(Lookup(vals, a.name).GetOr([]), a.value);
      }
    }
  }

  lemma {:induction false} ValueAt(xs: seq<Attribute>, vals: seq<(string, seq<string>)>, a: Attribute, n: string, v: string)
    requires forall n, v :: v in Lookup(vals, n).GetOr([]) <==> Attribute(n, v) in xs
    ensures v in Lookup(AddValue(vals, a), n).GetOr([]) <==> Attribute(n, v) in xs + [a]
  {
    assert Attribute(n, v) in xs + [a] <==> Attribute(n, v) in xs || Attribute(n, v) == a;
  }

  lemma {:induction false} AddUniqueDistinct(xs: seq<string>, v: string)
    requires Distinct(xs)
    ensures Distinct(AddUnique(xs, v))
  {
  }

  lemma {:induction false} ValuesAgreeFold(ms: seq<Match>)
    ensures ValuesAgree(RecordedAttributes(ms), Fold(ms).amenityValues)
  {
    if |ms| > 0 {
      ValuesAgreeFold(Init(ms));
      CollectValuesAgree(RecordedAttributes(Init(ms)), Fold(Init(ms)).amenityValues, Last(ms).attributes);
    }
  }

  // ---------------------------------------------------------------------------
  // Later matches never undo earlier ones

  lemma {:induction false} AtFacilityAppend(ms: seq<Match>, more: seq<Match>, f: string)
    ensures AtFacility(ms + more, f) == AtFacility(ms, f) + AtFacility(more, f)
    decreases |more|
  {
    if |more| == 0 {
      assert ms + more == ms;
    } else {
      AtFacilityAppend(ms, Init(more), f);
      assert Init(ms + more) == ms + Init(more);
      assert Last(ms + more) == Last(more);
    }
  }

  lemma {:induction false} AtSiteAppend(xs: seq<Match>, ys: seq<Match>, s: string)
    ensures AtSite(xs + ys, s) == AtSite(xs, s) + AtSite(ys, s)
    decreases |ys|
  {
    if |ys| == 0 {
      assert xs + ys == xs;
    } else {
      AtSiteAppend(xs, Init(ys), s);
      assert Init(xs + ys) == xs + Init(ys);
      assert Last(xs + ys) == Last(ys);
    }
  }

  lemma {:induction false} FirstLocationAppend(xs: seq<Match>, ys: seq<Match>)
    requires FirstLocation(xs).Some?
    ensures FirstLocation(xs + ys) == FirstLocation(xs)
    decreases |ys|
  {
    if |ys| == 0 {
      assert xs + ys == xs;
    } else {
      FirstLocationAppend(xs, Init(ys));
      assert Init(xs + ys) == xs + Init(ys);
    }
  }

  lemma {:induction false} FacilityNamesAppend(ms: seq<Match>, more: seq<Match>)
    ensures FacilityNames(ms + more) == FacilityNames(ms) + FacilityNames(more)
    decreases |more|
  {
    if |more| == 0 {
      assert ms + more == ms;
    } else {
      FacilityNamesAppend(ms, Init(more));
      assert Init(ms + more) == ms + Init(more);
      assert Last(ms + more) == Last(more);
    }
  }

  /** A dict filled from `xs + ys` lists the keys of one filled from `xs` first, in
      the same order: keys are never removed or moved. */
  lemma {:induction false} DedupAppend<T(!new)>(xs: seq<T>, ys: seq<T>)
    ensures Dedup(xs) <= Dedup(xs + ys)
    decreases |ys|
  {
    if |ys| > 0 {
      DedupAppend(xs, Init(ys));
      InitLast(xs + Init(ys), Last(ys));
      assert xs + ys == (xs + Init(ys)) + [Last(ys)];
      DedupSnoc(xs + Init(ys), Last(ys));
    } else {
      assert xs + ys == xs;
    }
  }

  /** The facility keys seen so far stay first, in their order, whatever matches
      follow. */
  lemma {:induction false} KeysStable(ms: seq<Match>, more: seq<Match>)
    ensures Keys(Fold(ms).sites) <= Keys(Fold(ms + more).sites)
  {
    SitesAgreeFold(ms);
    SitesAgreeFold(ms + more);
    FacilityNamesAppend(ms, more);
    DedupAppend(FacilityNames(ms), FacilityNames(more));
  }

  /** Once a facility has an entry, further matches keep its id, its name, and its
      location once set. */
  lemma {:induction false} EntriesStable(ms: seq<Match>, more: seq<Match>, f: string)
    requires Lookup(Fold(ms).sites, f).Some?
    ensures Lookup(Fold(ms + more).sites, f).Some?
    ensures var a, b := Lookup(Fold(ms).sites, f).value, Lookup(Fold(ms + more).sites, f).value;
      && b.campgroundId == a.campgroundId && b.campgroundName == a.campgroundName
      && (a.location.Some? ==> b.location == a.location)
  {
    SitesAgreeFold(ms);
    SitesAgreeFold(ms + more);
    FacilityNamesAppend(ms, more);
    AtFacilityAppend(ms, more, f);
    var xs := AtFacility(ms, f);
    if FirstLocation(xs).Some? {
      FirstLocationAppend(xs, AtFacility(more, f));
    }
  }

  /** Once a campsite has an entry, further matches keep its id, its name and its
      booking URL. */
  lemma {:induction false} CampsiteStable(ms: seq<Match>, more: seq<Match>, f: string, s: string)
    requires Lookup(Fold(ms).sites, f).Some?
    requires Lookup(Lookup(Fold(ms).sites, f).value.campsites, s).Some?
    ensures Lookup(Fold(ms + more).sites, f).Some?
    ensures Lookup(Lookup(Fold(ms + more).sites, f).value.campsites, s).Some?
    ensures var a, b := Lookup(Lookup(Fold(ms).sites, f).value.campsites, s).value,
                        Lookup(Lookup(Fold(ms + more).sites, f).value.campsites, s).value;
      b.campsiteId == a.campsiteId && b.campsiteName == a.campsiteName && b.bookingUrl == a.bookingUrl
  {
    SitesAgreeFold(ms);
    SitesAgreeFold(ms + more);
    FacilityNamesAppend(ms, more);
    AtFacilityAppend(ms, more, f);
    var xs, ys := AtFacility(ms, f), AtFacility(more, f);
    SiteNamesAppend(xs, ys);
    AtSiteAppend(xs, ys, s);
  }

  lemma {:induction false} SiteNamesAppend(xs: seq<Match>, ys: seq<Match>)
    ensures SiteNames(xs + ys) == SiteNames(xs) + SiteNames(ys)
    decreases |ys|
  {
    if |ys| == 0 {
      assert xs + ys == xs;
    } else {
      SiteNamesAppend(xs, Init(ys));
      assert Init(xs + ys) == xs + Init(ys);
      assert Last(xs + ys) == Last(ys);
    }
  }
}

=== FILE: AssocList.dfy ===
/** An insertion-ordered Python `dict` as an association list: keys keep the position
    of their first insertion, and assigning to an existing key replaces its value in
    place. */
module AssocList {
  import opened Common

  function Keys<K, V>(l: seq<(K, V)>): (ks: seq<K>)
    ensures |ks| == |l|
    ensures forall i :: 0 <= i < |l| ==> ks[i] == l[i].0
  {
    if |l| == 0 then [] else [l[0].0] + Keys(l[1..])
  }

  /** `d.get(k)`: the value stored under `k`, if any. */
  function Lookup<K(==), V>(l: seq<(K, V)>, k: K): (r: Option<V>)
    ensures r.Some? <==> k in Keys(l)
  {
    if |l| == 0 then None
    else if l[0].0 == k then Some(l[0].1)
    else
      var r := Lookup(l[1..], k);
      assert Keys(l) == [l[0].0] + Keys(l[1..]);
      r
  }

  lemma {:induction false} KeysCons<K, V>(x: (K, V), t: seq<(K, V)>)
    ensures Keys([x] + t) == [x.0] + Keys(t)
  {
  }

  lemma {:induction false} LookupCons<K(!new), V>(x: (K, V), t: seq<(K, V)>)
    ensures forall k :: Lookup([x] + t, k) == if x.0 == k then Some(x.1) else Lookup(t, k)
  {
    assert ([x] + t)[1..] == t;
  }

  /** `d[k] = v`. */
  function Put<K(==, !new), V>(l: seq<(K, V)>, k: K, v: V): (r: seq<(K, V)>)
    ensures Keys(r) == if k in Keys(l) then Keys(l) else Keys(l) + [k]
    ensures Lookup(r, k) == Some(v)
    ensures forall k' :: k' != k ==> Lookup(r, k') == Lookup(l, k')
  {
    if |l| == 0 then [(k, v)]
    else if l[0].0 == k then
      PutHead(l, k, v);
      [(k, v)] + l[1..]
    else
      var t := Put(l[1..], k, v);
      PutTail(l, k, v, t);
      [l[0]] + t
  }

  lemma {:induction false} PutHead<K(!new), V>(l: seq<(K, V)>, k: K, v: V)
    requires |l| > 0 && l[0].0 == k
    ensures Keys([(k, v)] + l[1..]) == Keys(l)
    ensures forall k' :: Lookup([(k, v)] + l[1..], k') == if k' == k then Some(v) else Lookup(l, k')
  {
    assert l == [l[0]] + l[1..];
    KeysCons(l[0], l[1..]);
    LookupCons(l[0], l[1..]);
    KeysCons((k, v), l[1..]);
    LookupCons((k, v), l[1..]);
  }

  lemma {:induction false} PutTail<K(!new), V>(l: seq<(K, V)>, k: K, v: V, t: seq<(K, V)>)
    requires |l| > 0 && l[0].0 != k
    requires Keys(t) == if k in Keys(l[1..]) then Keys(l[1..]) else Keys(l[1..]) + [k]
    requires forall k' :: Lookup(t, k') == if k' == k then Some(v) else Lookup(l[1..], k')
    ensures Keys([l[0]] + t) == if k in Keys(l) then Keys(l) else Keys(l) + [k]
    ensures forall k' :: Lookup([l[0]] + t, k') == if k' == k then Some(v) else Lookup(l, k')
  {
    assert l == [l[0]] + l[1..];
    KeysCons(l[0], l[1..]);
    LookupCons(l[0], l[1..]);
    KeysCons(l[0], t);
    LookupCons(l[0], t);
  }

  /** The sum of `w` over the values: `sum(w(v) for v in d.values())`. */
  function SumBy<K, V>(l: seq<(K, V)>, w: V -> nat): nat {
    if |l| == 0 then 0 else w(l[0].1) + SumBy(l[1..], w)
  }

  /** Assigning one key changes a sum over the values by the new value's weight,
      less the weight of the value it replaces. */
  lemma {:induction false} PutSumBy<K(!new), V>(l: seq<(K, V)>, k: K, v: V, w: V -> nat)
    ensures Lookup(l, k).None? ==> SumBy(Put(l, k, v), w) == SumBy(l, w) + w(v)
    ensures Lookup(l, k).Some? ==> SumBy(Put(l, k, v), w) + w(Lookup(l, k).value) == SumBy(l, w) + w(v)
  {
    if |l| == 0 {
    } else if l[0].0 == k {
      assert ([(k, v)] + l[1..])[1..] == l[1..];
    } else {
      PutSumBy(l[1..], k, v, w);
      var t := Put(l[1..], k, v);
      assert Put(l, k, v) == [l[0]] + t;
      assert ([l[0]] + t)[1..] == t;
    }
  }

  /** Assigning a value that weighs one more than the one it replaces (or one, for a
      new key) raises the sum by one. */
  lemma {:induction false} IncrementSumBy<K(!new), V>(l: seq<(K, V)>, k: K, v: V, w: V -> nat)
    requires w(v) == (if Lookup(l, k).Some? then w(Lookup(l, k).value) else 0) + 1
    ensures SumBy(Put(l, k, v), w) == SumBy(l, w) + 1
  {
    PutSumBy(l, k, v, w);
  }
}

=== FILE: Clock.dfy ===
/** Timestamps and the `strftime`/`strptime` formats the reports use:
      - `%Y-%m-%dT%H:%M:%S` for the summary's `runtime` field,
      - `%Y-%m-%d` for booking dates,
      - `%Y%m%d_%H%M%S` for the timestamped report filenames,
      - `%B %d, %Y %I:%M:%S %p` and `%B %d, %Y %I:%M %p` for the index's display strings,
    all in the C locale. */
module Clock {
  import opened Common
  import opened Text

  datatype DateTime = DateTime(year: int, month: int, day: int, hour: int, minute: int, second: int)

  predicate IsLeapYear(y: int) {
    y % 4 == 0 && (y % 100 != 0 || y % 400 == 0)
  }

  function DaysInMonth(y: int, m: int): int
    requires 1 <= m <= 12
  {
    if m == 2 then (if IsLeapYear(y) then 29 else 28)
    else if m == 4 || m == 6 || m == 9 || m == 11 then 30
    else 31
  }

  /** A calendar date and time of day that Python's `datetime` can hold, restricted
      to four-digit years. */
  predicate Valid(dt: DateTime) {
    && 1000 <= dt.year <= 9999
    && 1 <= dt.month <= 12
    && 1 <= dt.day <= DaysInMonth(dt.year, dt.month)
    && 0 <= dt.hour < 24
    && 0 <= dt.minute < 60
    && 0 <= dt.second < 60
  }

  /** The values of Python's `datetime` type that the model covers. */
  type Timestamp = dt: DateTime | Valid(dt) witness DateTime(2000, 1, 1, 0, 0, 0)

  /** Chronological order. */
  predicate Before(a: DateTime, b: DateTime) {
    || a.year < b.year
    || (a.year == b.year && a.month < b.month)
    || (a.year == b.year && a.month == b.month && a.day < b.day)
    || (a.year == b.year && a.month == b.month && a.day == b.day && a.hour < b.hour)
    || (a.year == b.year && a.month == b.month && a.day == b.day && a.hour == b.hour && a.minute < b.minute)
    || (a.year == b.year && a.month == b.month && a.day == b.day && a.hour == b.hour && a.minute == b.minute && a.second < b.second)
  }

  // ---------------------------------------------------------------------------
  // Zero-padded decimal fields

  function Digit(d: int): char
    requires 0 <= d < 10
  {
    ('0' as int + d) as char
  }

  predicate IsDigit(c: char) {
    '0' <= c <= '9'
  }

  function DigitValue(c: char): int {
    c as int - '0' as int
  }

  /** `%02d`. */
  function Pad2(n: int): (r: string)
    requires 0 <= n < 100
    ensures |r| == 2 && IsDigit(r[0]) && IsDigit(r[1])
  {
    [Digit(n / 10), Digit(n % 10)]
  }

  /** `%04d`. */
  function Pad4(n: int): (r: string)
    requires 0 <= n < 10000
    ensures |r| == 4 && forall i :: 0 <= i < 4 ==> IsDigit(r[i])
  {
    Pad2(n / 100) + Pad2(n % 100)
  }

  /** The value of two decimal digits. */
  function Number2(s: string): int
    requires |s| == 2
  {
    DigitValue(s[0]) * 10 + DigitValue(s[1])
  }

  /** The value of four decimal digits. */
  function Number4(s: string): int
    requires |s| == 4
  {
    Number2(s[..2]) * 100 + Number2(s[2..])
  }

  lemma {:induction false} DigitRoundTrip(d: int, c: char)
    requires 0 <= d < 10 && IsDigit(c)
    ensures DigitValue(Digit(d)) == d
    ensures 0 <= DigitValue(c) < 10 && Digit(DigitValue(c)) == c
  {
  }

  lemma {:induction false} Pad2Number(n: int)
    requires 0 <= n < 100
    ensures Number2(Pad2(n)) == n
  {
    DigitRoundTrip(n / 10, '0');
    DigitRoundTrip(n % 10, '0');
  }

  lemma {:induction false} Pad4Number(n: int)
    requires 0 <= n < 10000
    ensures Number4(Pad4(n)) == n
  {
    var s := Pad4(n);
    assert s[..2] == Pad2(n / 100) && s[2..] == Pad2(n % 100);
    Pad2Number(n / 100);
    Pad2Number(n % 100);
  }

  lemma {:induction false} NumberPad2(s: string)
    requires |s| == 2 && IsDigit(s[0]) && IsDigit(s[1])
    ensures 0 <= Number2(s) < 100 && Pad2(Number2(s)) == s
  {
    var d0, d1 := DigitValue(s[0]), DigitValue(s[1]);
    DigitRoundTrip(0, s[0]);
    DigitRoundTrip(0, s[1]);
    assert (d0 * 10 + d1) / 10 == d0 && (d0 * 10 + d1) % 10 == d1;
  }

  lemma {:induction false} NumberPad4(s: string)
    requires |s| == 4 && forall i :: 0 <= i < 4 ==> IsDigit(s[i])
    ensures 0 <= Number4(s) < 10000 && Pad4(Number4(s)) == s
  {
    var hi, lo := s[..2], s[2..];
    assert IsDigit(s[0]) && IsDigit(s[1]) && IsDigit(s[2]) && IsDigit(s[3]);
    NumberPad2(hi);
    NumberPad2(lo);
    var h, l := Number2(hi), Number2(lo);
    assert (h * 100 + l) / 100 == h && (h * 100 + l) % 100 == l;
    assert s == hi + lo;
  }

  lemma {:induction false} Pad2Injective(m: int, n: int)
    requires 0 <= m < 100 && 0 <= n < 100 && Pad2(m) == Pad2(n)
    ensures m == n
  {
    Pad2Number(m);
    Pad2Number(n);
  }

  lemma {:induction false} Pad4Injective(m: int, n: int)
    requires 0 <= m < 10000 && 0 <= n < 10000 && Pad4(m) == Pad4(n)
    ensures m == n
  {
    Pad4Number(m);
    Pad4Number(n);
  }

  /** Zero-padded fields of equal width compare as strings as their values compare. */
  lemma {:induction false} Pad2Order(m: int, n: int)
    requires 0 <= m < 100 && 0 <= n < 100
    ensures Lt(Pad2(m), Pad2(n)) <==> m < n
  {
    var a, b := Pad2(m), Pad2(n);
    assert a[1..][1..] == [] && b[1..][1..] == [];
    assert Lt(a[1..], b[1..]) <==> a[1] < b[1];
    assert Lt(a, b) <==> a[0] < b[0] || (a[0] == b[0] && a[1] < b[1]);
    assert a[0] < b[0] <==> m / 10 < n / 10;
    assert a[0] == b[0] <==> m / 10 == n / 10;
    assert a[1] < b[1] <==> m % 10 < n % 10;
  }

  lemma {:induction false} Pad4Order(m: int, n: int)
    requires 0 <= m < 10000 && 0 <= n < 10000
    ensures Lt(Pad4(m), Pad4(n)) <==> m < n
  {
    LtConcat(Pad2(m / 100), Pad2(m % 100), Pad2(n / 100), Pad2(n % 100));
    Pad2Order(m / 100, n / 100);
    Pad2Order(m % 100, n % 100);
    if Pad2(m / 100) == Pad2(n / 100) {
      Pad2Injective(m / 100, n / 100);
    }
  }

  // ---------------------------------------------------------------------------
  // Formats

  /** `%Y-%m-%d`: the date keys of a summary. */
  function FormatDate(dt: DateTime): (r: string)
    requires Valid(dt)
    ensures |r| == 10
  {
    Pad4(dt.year) + "-" + Pad2(dt.month) + "-" + Pad2(dt.day)
  }

  /** `%H:%M:%S`. */
  function FormatTime(dt: DateTime): (r: string)
    requires Valid(dt)
    ensures |r| == 8
  {
    Pad2(dt.hour) + ":" + Pad2(dt.minute) + ":" + Pad2(dt.second)
  }

  /** `%Y-%m-%dT%H:%M:%S`: the `runtime` field of a summary and the
      regeneration comment. */
  function FormatIso(dt: DateTime): (r: string)
    requires Valid(dt)
    ensures |r| == 19
  {
    FormatDate(dt) + "T" + FormatTime(dt)
  }

  /** `%Y%m%d_%H%M%S`: the stamp in timestamped report filenames. */
  function FormatStamp(dt: DateTime): (r: string)
    requires Valid(dt)
    ensures |r| == 15
  {
    Pad4(dt.year) + Pad2(dt.month) + Pad2(dt.day) + "_" + Pad2(dt.hour) + Pad2(dt.minute) + Pad2(dt.second)
  }

  /** `%B`. */
  function MonthName(m: int): string
    requires 1 <= m <= 12
  {
    ["January", "February", "March", "April", "May", "June", "July",
     "August", "September", "October", "November", "December"][m - 1]
  }

  /** `%I`: the hour on a twelve-hour clock, 12 standing for 0. */
  function Hour12(h: int): (r: int)
    requires 0 <= h < 24
    ensures 1 <= r <= 12
  {
    if h % 12 == 0 then 12 else h % 12
  }

  /** `%p`. */
  function Meridiem(h: int): string {
    if h < 12 then "AM" else "PM"
  }

  /** `%B %d, %Y %I:%M:%S %p`: the index's display form of a report's runtime. */
  function FormatDisplay(dt: DateTime): string
    requires Valid(dt)
  {
    MonthName(dt.month) + " " + Pad2(dt.day) + ", " + Pad4(dt.year) + " "
      + Pad2(Hour12(dt.hour)) + ":" + Pad2(dt.minute) + ":" + Pad2(dt.second) + " " + Meridiem(dt.hour)
  }

  /** `%B %d, %Y %I:%M %p`: the index's display form of a file modification time. */
  function FormatModified(dt: DateTime): string
    requires Valid(dt)
  {
    MonthName(dt.month) + " " + Pad2(dt.day) + ", " + Pad4(dt.year) + " "
      + Pad2(Hour12(dt.hour)) + ":" + Pad2(dt.minute) + " " + Meridiem(dt.hour)
  }

  predicate DigitsAt(s: string, lo: int, hi: int)
    requires 0 <= lo <= hi <= |s|
  {
    forall i :: lo <= i < hi ==> IsDigit(s[i])
  }

  /** `datetime.strptime(s, "%Y-%m-%dT%H:%M:%S")` on zero-padded input: `None` where
      Python raises `ValueError`. */
  function ParseIso(s: string): (r: Option<DateTime>)
    ensures r.Some? ==> Valid(r.value)
  {
    if |s| == 19 && s[4] == '-' && s[7] == '-' && s[10] == 'T' && s[13] == ':' && s[16] == ':'
       && DigitsAt(s, 0, 4) && DigitsAt(s, 5, 7) && DigitsAt(s, 8, 10)
       && DigitsAt(s, 11, 13) && DigitsAt(s, 14, 16) && DigitsAt(s, 17, 19)
    then
      var dt := DateTime(Number4(s[0..4]), Number2(s[5..7]), Number2(s[8..10]),
                         Number2(s[11..13]), Number2(s[14..16]), Number2(s[17..19]));
      if Valid(dt) then Some(dt) else None
    else None
  }

  // ---------------------------------------------------------------------------
  // Properties of the formats

  lemma {:induction false} IsoPieces(dt: DateTime)
    requires Valid(dt)
    ensures FormatIso(dt)[0..4] == Pad4(dt.year) && FormatIso(dt)[5..7] == Pad2(dt.month)
    ensures FormatIso(dt)[8..10] == Pad2(dt.day) && FormatIso(dt)[11..13] == Pad2(dt.hour)
    ensures FormatIso(dt)[14..16] == Pad2(dt.minute) && FormatIso(dt)[17..19] == Pad2(dt.second)
    ensures FormatIso(dt)[4] == '-' && FormatIso(dt)[7] == '-' && FormatIso(dt)[10] == 'T'
    ensures FormatIso(dt)[13] == ':' && FormatIso(dt)[16] == ':'
  {
    var d, t := FormatDate(dt), FormatTime(dt);
    var s := FormatIso(dt);
    DatePieces(dt);
    TimePieces(dt);
    assert s[..10] == d && s[10] == 'T' && s[11..] == t;
    assert s[0..4] == d[0..4] && s[5..7] == d[5..7] && s[8..10] == d[8..10];
    assert s[11..13] == t[0..2] && s[14..16] == t[3..5] && s[17..19] == t[6..8];
  }

  lemma {:induction false} DatePieces(dt: DateTime)
    requires Valid(dt)
    ensures FormatDate(dt)[0..4] == Pad4(dt.year) && FormatDate(dt)[5..7] == Pad2(dt.month)
    ensures FormatDate(dt)[8..10] == Pad2(dt.day) && FormatDate(dt)[4] == '-' && FormatDate(dt)[7] == '-'
  {
  }

  lemma {:induction false} TimePieces(dt: DateTime)
    requires Valid(dt)
    ensures FormatTime(dt)[0..2] == Pad2(dt.hour) && FormatTime(dt)[3..5] == Pad2(dt.minute)
    ensures FormatTime(dt)[6..8] == Pad2(dt.second) && FormatTime(dt)[2] == ':' && FormatTime(dt)[5] == ':'
  {
  }

  /** Reading back a written `runtime` gives the timestamp that was written. */
  lemma {:induction false} ParseFormatIso(dt: DateTime)
    requires Valid(dt)
    ensures ParseIso(FormatIso(dt)) == Some(dt)
  {
    var s := FormatIso(dt);
    IsoPieces(dt);
    Pad4Number(dt.year);
    Pad2Number(dt.month);
    Pad2Number(dt.day);
    Pad2Number(dt.hour);
    Pad2Number(dt.minute);
    Pad2Number(dt.second);
  }

  /** A string that parses is the one the parsed timestamp formats to. */
  lemma {:induction false} FormatParseIso(s: string)
    requires ParseIso(s).Some?
    ensures FormatIso(ParseIso(s).value) == s
  {
    var dt := ParseIso(s).value;
    NumberPad4(s[0..4]);
    NumberPad2(s[5..7]);
    NumberPad2(s[8..10]);
    NumberPad2(s[11..13]);
    NumberPad2(s[14..16]);
    NumberPad2(s[17..19]);
    IsoPieces(dt);
    var f := FormatIso(dt);
    assert forall i :: 0 <= i < 19 ==> f[i] == s[i] by {
      forall i | 0 <= i < 19 ensures f[i] == s[i] {
        if i < 4 { assert f[i] == f[0..4][i] && s[i] == s[0..4][i]; }
        else if 5 <= i < 7 { assert f[i] == f[5..7][i - 5] && s[i] == s[5..7][i - 5]; }
        else if 8 <= i < 10 { assert f[i] == f[8..10][i - 8] && s[i] == s[8..10][i - 8]; }
        else if 11 <= i < 13 { assert f[i] == f[11..13][i - 11] && s[i] == s[11..13][i - 11]; }
        else if 14 <= i < 16 { assert f[i] == f[14..16][i - 14] && s[i] == s[14..16][i - 14]; }
        else if 17 <= i < 19 { assert f[i] == f[17..19][i - 17] && s[i] == s[17..19][i - 17]; }
      }
    }
  }

  /** Three zero-padded fields joined by one separator compare field by field. */
  lemma {:induction false} LtJoined3(a1: string, a2: string, a3: string, b1: string, b2: string, b3: string, sep: string)
    requires |a1| == |b1| && |a2| == |b2|
    ensures Lt(a1 + sep + a2 + sep + a3, b1 + sep + b2 + sep + b3)
        <==> Lt(a1, b1) || (a1 == b1 && (Lt(a2, b2) || (a2 == b2 && Lt(a3, b3))))
  {
    assert a1 + sep + a2 + sep + a3 == a1 + (sep + (a2 + (sep + a3)));
    assert b1 + sep + b2 + sep + b3 == b1 + (sep + (b2 + (sep + b3)));
    LtConcat(a1, sep + (a2 + (sep + a3)), b1, sep + (b2 + (sep + b3)));
    LtConcat(sep, a2 + (sep + a3), sep, b2 + (sep + b3));
    LtIrreflexive(sep);
    LtConcat(a2, sep + a3, b2, sep + b3);
    LtConcat(sep, a3, sep, b3);
  }

  lemma {:induction false} DateOrder(a: DateTime, b: DateTime)
    requires Valid(a) && Valid(b)
    ensures Lt(FormatDate(a), FormatDate(b))
        <==> a.year < b.year || (a.year == b.year && (a.month < b.month || (a.month == b.month && a.day < b.day)))
    ensures FormatDate(a) == FormatDate(b) <==> a.year == b.year && a.month == b.month && a.day == b.day
  {
    LtJoined3(Pad4(a.year), Pad2(a.month), Pad2(a.day), Pad4(b.year), Pad2(b.month), Pad2(b.day), "-");
    Pad4Order(a.year, b.year);
    Pad2Order(a.month, b.month);
    Pad2Order(a.day, b.day);
    if FormatDate(a) == FormatDate(b) {
      DatePieces(a);
      DatePieces(b);
      Pad4Injective(a.year, b.year);
      Pad2Injective(a.month, b.month);
      Pad2Injective(a.day, b.day);
    }
    if Pad4(a.year) == Pad4(b.year) { Pad4Injective(a.year, b.year); }
    if Pad2(a.month) == Pad2(b.month) { Pad2Injective(a.month, b.month); }
  }

  lemma {:induction false} TimeOrder(a: DateTime, b: DateTime)
    requires Valid(a) && Valid(b)
    ensures Lt(FormatTime(a), FormatTime(b))
        <==> a.hour < b.hour || (a.hour == b.hour && (a.minute < b.minute || (a.minute == b.minute && a.second < b.second)))
  {
    LtJoined3(Pad2(a.hour), Pad2(a.minute), Pad2(a.second), Pad2(b.hour), Pad2(b.minute), Pad2(b.second), ":");
    Pad2Order(a.hour, b.hour);
    Pad2Order(a.minute, b.minute);
    Pad2Order(a.second, b.second);
    if Pad2(a.hour) == Pad2(b.hour) { Pad2Injective(a.hour, b.hour); }
    if Pad2(a.minute) == Pad2(b.minute) { Pad2Injective(a.minute, b.minute); }
  }

  /** The `%Y-%m-%dT%H:%M:%S` form sorts as strings exactly as the timestamps sort in
      time, in both directions. */
  lemma {:induction false} IsoOrder(a: DateTime, b: DateTime)
    requires Valid(a) && Valid(b)
    ensures Before(a, b) <==> Lt(FormatIso(a), FormatIso(b))
  {
    LtConcat(FormatDate(a), "T" + FormatTime(a), FormatDate(b), "T" + FormatTime(b));
    assert FormatIso(a) == FormatDate(a) + ("T" + FormatTime(a));
    assert FormatIso(b) == FormatDate(b) + ("T" + FormatTime(b));
    LtConcat("T", FormatTime(a), "T", FormatTime(b));
    LtIrreflexive("T");
    DateOrder(a, b);
    TimeOrder(a, b);
  }

  lemma {:induction false} StampPieces(dt: DateTime)
    requires Valid(dt)
    ensures FormatStamp(dt)[0..4] == Pad4(dt.year) && FormatStamp(dt)[4..6] == Pad2(dt.month)
    ensures FormatStamp(dt)[6..8] == Pad2(dt.day) && FormatStamp(dt)[9..11] == Pad2(dt.hour)
    ensures FormatStamp(dt)[11..13] == Pad2(dt.minute) && FormatStamp(dt)[13..15] == Pad2(dt.second)
  {
  }

  /** Distinct timestamps give distinct filename stamps. */
  lemma {:induction false} StampInjective(a: DateTime, b: DateTime)
    requires Valid(a) && Valid(b) && FormatStamp(a) == FormatStamp(b)
    ensures a == b
  {
    StampPieces(a);
    StampPieces(b);
    Pad4Injective(a.year, b.year);
    Pad2Injective(a.month, b.month);
    Pad2Injective(a.day, b.day);
    Pad2Injective(a.hour, b.hour);
    Pad2Injective(a.minute, b.minute);
    Pad2Injective(a.second, b.second);
  }
}

=== FILE: Common.dfy ===
/** Option and result types shared by the whole model: a Python value that may be
    `None`, and an operation that either returns or raises. */
module Common {

  datatype Option<+T> = None | Some(value: T) {

    /** The value, or `default` when there is none (Python's `d.get(k, default)`). */
    function GetOr(default: T): T {
      match this
      case Some(v) => v
      case None => default
    }
  }

  /** `Failure` stands for a Python exception raised by the modelled operation. */
  datatype Result<+R, +E> = Success(value: R) | Failure(error: E)

  /** The last element of a non-empty sequence. */
  function Last<T>(xs: seq<T>): T
    requires |xs| > 0
  {
    xs[|xs| - 1]
  }

  /** Everything but the last element of a non-empty sequence. */
  function Init<T>(xs: seq<T>): seq<T>
    requires |xs| > 0
  {
    xs[..|xs| - 1]
  }

  lemma {:induction false} InitLast<T>(xs: seq<T>, x: T)
    ensures Init(xs + [x]) == xs && Last(xs + [x]) == x
  {
    assert (xs + [x])[..|xs|] == xs;
  }

  /** The elements of `xs` in first-seen order, each kept once: the key order of a
      Python dict filled from `xs`. */
  function Dedup<T(==, !new)>(xs: seq<T>): (r: seq<T>)
    ensures forall x :: x in r <==> x in xs
    ensures forall i, j :: 0 <= i < j < |r| ==> r[i] != r[j]
    ensures |r| <= |xs|
  {
    if |xs| == 0 then []
    else
      var p := Dedup(Init(xs));
      assert xs == Init(xs) + [Last(xs)];
      if Last(xs) in p then p else p + [Last(xs)]
  }

  lemma {:induction false} DedupSnoc<T(!new)>(xs: seq<T>, x: T)
    ensures Dedup(xs + [x]) == if x in xs then Dedup(xs) else Dedup(xs) + [x]
  {
    InitLast(xs, x);
  }

  lemma {:induction false} MemberSnoc<T>(xs: seq<T>, y: T)
    requires |xs| > 0
    ensures y in xs <==> y in Init(xs) || y == Last(xs)
  {
    assert xs == Init(xs) + [Last(xs)];
  }

  /** Two lists holding the same elements as many times each have the same length
      and the same members. */
  lemma {:induction false} SameMembers<T>(a: seq<T>, b: seq<T>)
    requires multiset(a) == multiset(b)
    ensures |a| == |b|
    ensures forall x :: x in a <==> x in b
  {
    assert |a| == |multiset(a)| && |b| == |multiset(b)|;
    forall x ensures x in a <==> x in b {
      assert x in a <==> x in multiset(a);
      assert x in b <==> x in multiset(b);
    }
  }

  /** The values `f` gives for the elements of `xs` it does not reject, in order:
      a loop that appends one result per element and skips the failures. */
  function FilterMap<A(!new), B(!new)>(xs: seq<A>, f: A -> Option<B>): (r: seq<B>)
    ensures |r| == CountSome(xs, f)
    ensures forall y :: y in r <==> exists x :: x in xs && f(x) == Some(y)
  {
    if |xs| == 0 then []
    else
      var t := FilterMap(xs[1..], f);
      assert xs == [xs[0]] + xs[1..];
      match f(xs[0])
      case Some(y) => [y] + t
      case None => t
  }

  /** The number of elements of `xs` that `f` does not reject. */
  function CountSome<A, B>(xs: seq<A>, f: A -> Option<B>): (n: nat)
    ensures n <= |xs|
  {
    if |xs| == 0 then 0 else (if f(xs[0]).Some? then 1 else 0) + CountSome(xs[1..], f)
  }
}

=== FILE: Index.dfy ===
/** `generate_index_html` in its two variants: one index entry per stored report
    that has both its JSON and its HTML file and whose JSON holds what the entry
    needs, newest first. */
module Index {
  import opened Common
  import opened AssocList
  import opened Text
  import opened Sorting
  import Clock
  import opened Storage

  /** The main script's index shows each report's provider; the favorites one does
      not read the provider at all. */
  datatype Variant = MainIndex | FavoritesIndex

  /** One entry of `reports`. `at` is the parsed runtime the `runtime` text is
      formatted from; it is kept for the statements about order only. */
  datatype IndexEntry = IndexEntry(
    filename: string,
    areaName: string,
    provider: Option<string>,
    runtime: string,
    modified: string,
    startDate: string,
    endDate: string,
    at: Clock.Timestamp)

  const UnknownProvider: string := "Unknown Provider"

  /** `data.get('provider', {}).get('name', 'Unknown Provider')`; `None` where
      Python raises because the value is not an object. */
  function ProviderName(p: ProviderField): (r: Option<string>)
    ensures r.None? <==> p.ProviderNotObject?
    ensures p.ProviderObject? && p.name.Some? ==> r == p.name
    ensures p.NoProvider? || (p.ProviderObject? && p.name.None?) ==> r == Some(UnknownProvider)
  {
    match p
    case NoProvider => Some(UnknownProvider)
    case ProviderObject(name, _) => Some(name.GetOr(UnknownProvider))
    case ProviderNotObject => None
  }

  /** The runtime of a stored report: the stored text parsed with
      `%Y-%m-%dT%H:%M:%S`, or `fallback` (the day before the index is built) when the
      key is missing; `None` where `strptime` raises. */
  function RuntimeOf(d: JsonDoc, fallback: Clock.Timestamp): (r: Option<Clock.Timestamp>)
    ensures d.runtime.None? ==> r == Some(fallback)
    ensures d.runtime.Some? ==> (r.Some? <==> Clock.ParseIso(d.runtime.value).Some?)
    ensures d.runtime.Some? && r.Some? ==> Clock.FormatIso(r.value) == d.runtime.value
  {
    if d.runtime.None? then Some(fallback)
    else
      match Clock.ParseIso(d.runtime.value)
      case None => None
      case Some(dt) =>
        Clock.FormatParseIso(d.runtime.value);
        Some(dt)
  }

  /** A stored report the index can list: both files there, the JSON readable, its
      runtime parseable, its provider usable (main index only), and its
      `rec_area_name` and non-empty `date_counts` present. */
  predicate Listable(v: Variant, files: Files, fallback: Clock.Timestamp) {
    && files.json.Some? && files.html.Some? && files.json.value.Parsed?
    && var d := files.json.value.doc;
    && RuntimeOf(d, fallback).Some?
    && (v == MainIndex ==> !d.provider.ProviderNotObject?)
    && d.recAreaName.Some?
    && d.dateCounts.Some? && |d.dateCounts.value| > 0
  }

  /** The body of the `try` for one JSON file, after the sibling check; `None` when
      the file is skipped. */
  function BuildEntry(v: Variant, base: string, files: Files, fallback: Clock.Timestamp): (r: Option<IndexEntry>)
    ensures r.Some? <==> Listable(v, files, fallback)
    ensures r.Some? ==> r.value.filename == base + ".html"
    ensures r.Some? ==> r.value.areaName == files.json.value.doc.recAreaName.value
    ensures r.Some? ==> r.value.provider == if v == MainIndex then ProviderName(files.json.value.doc.provider) else None
    ensures r.Some? ==> r.value.at == RuntimeOf(files.json.value.doc, fallback).value
    ensures r.Some? ==> r.value.runtime == Clock.FormatDisplay(r.value.at)
    ensures r.Some? ==> r.value.modified == Clock.FormatModified(files.html.value.modified)
    ensures r.Some? ==> IsRange(Keys(files.json.value.doc.dateCounts.value), r.value.startDate, r.value.endDate)
  {
    if !Listable(v, files, fallback) then None
    else
      var d := files.json.value.doc;
      var at := RuntimeOf(d, fallback).value;
      var dates := Keys(d.dateCounts.value);
      MinLeMax(dates);
      Some(IndexEntry(base + ".html", d.recAreaName.value, if v == MainIndex then ProviderName(d.provider) else None,
                      Clock.FormatDisplay(at), Clock.FormatModified(files.html.value.modified),
                      MinOf(dates), MaxOf(dates), at))
  }

  /** `start` and `end` are the smallest and the largest of `keys`. */
  ghost predicate IsRange(keys: seq<string>, start: string, end: string) {
    && start in keys && end in keys && Le(start, end)
    && forall k :: k in keys ==> Le(start, k) && Le(k, end)
  }

  /** The number of `.json` files in the directory: what `glob("*.json")` lists. */
  function JsonCount(dir: Directory): (n: nat)
    ensures n <= |dir|
  {
    if |dir| == 0 then 0 else (if dir[0].1.json.Some? then 1 else 0) + JsonCount(dir[1..])
  }

  /** Some file of the directory yields the entry `e`. */
  ghost predicate BuiltFrom(v: Variant, dir: Directory, fallback: Clock.Timestamp, e: IndexEntry) {
    exists p :: p in dir && BuildEntry(v, p.0, p.1, fallback) == Some(e)
  }

  /** An entry shows its runtime in the display format. */
  lemma {:induction false} BuiltRuntime(v: Variant, dir: Directory, fallback: Clock.Timestamp, e: IndexEntry)
    requires BuiltFrom(v, dir, fallback, e)
    ensures e.runtime == Clock.FormatDisplay(e.at)
  {
    var p :| p in dir && BuildEntry(v, p.0, p.1, fallback) == Some(e);
  }

  /** `reports` before sorting: the entries built, in listing order. */
  function Entries(v: Variant, dir: Directory, fallback: Clock.Timestamp): (r: seq<IndexEntry>)
    ensures forall e :: e in r <==> BuiltFrom(v, dir, fallback, e)
  {
    FilterMap(dir, EntryStep(v, fallback))
  }

  function EntryStep(v: Variant, fallback: Clock.Timestamp): ((string, Files)) -> Option<IndexEntry> {
    (p: (string, Files)) => BuildEntry(v, p.0, p.1, fallback)
  }

  /** Only `.json` files yield entries, so there are at most as many entries as
      JSON files. */
  lemma {:induction false} EntriesAtMostJson(v: Variant, dir: Directory, fallback: Clock.Timestamp)
    ensures |Entries(v, dir, fallback)| <= JsonCount(dir)
  {
    EntryCount(v, dir, fallback);
  }

  lemma {:induction false} EntryCount(v: Variant, dir: Directory, fallback: Clock.Timestamp)
    ensures CountSome(dir, EntryStep(v, fallback)) <= JsonCount(dir)
    decreases |dir|
  {
    if |dir| > 0 {
      EntryCount(v, dir[1..], fallback);
    }
  }

  /** The favorites index never reads the provider: its entries carry none, and
      changing a summary's provider changes nothing about its entry. */
  lemma {:induction false} FavoritesIgnoresProvider(base: string, files: Files, fallback: Clock.Timestamp, p: ProviderField)
    requires files.json.Some? && files.json.value.Parsed?
    ensures var other := files.(json := Some(Parsed(files.json.value.doc.(provider := p))));
            BuildEntry(FavoritesIndex, base, other, fallback) == BuildEntry(FavoritesIndex, base, files, fallback)
    ensures BuildEntry(FavoritesIndex, base, files, fallback).Some? ==> BuildEntry(FavoritesIndex, base, files, fallback).value.provider.None?
  {
  }

  /** The sort key of the index: the formatted runtime text. */
  function DisplayKey(e: IndexEntry): string {
    e.runtime
  }

  /** `generate_index_html` as written: the entries sorted newest first by comparing
      the `"%B %d, %Y %I:%M:%S %p"` texts as strings. */
  function GenerateIndex(v: Variant, dir: Directory, fallback: Clock.Timestamp): (r: seq<IndexEntry>)
    ensures |r| <= JsonCount(dir)
    ensures multiset(r) == multiset(Entries(v, dir, fallback))
    ensures DescendingBy(r, DisplayKey)
    ensures forall k :: WithKey(r, DisplayKey, k) == WithKey(Entries(v, dir, fallback), DisplayKey, k)
    ensures forall e :: e in r <==> BuiltFrom(v, dir, fallback, e)
  {
    var es := Entries(v, dir, fallback);
    var r := SortDesc(es, DisplayKey);
    SameMembers(r, es);
    EntriesAtMostJson(v, dir, fallback);
    r
  }

  /** The sort key the index evidently means: the runtime as `%Y-%m-%dT%H:%M:%S`,
      which sorts as text exactly as the runtimes sort in time. */
  function IsoKey(e: IndexEntry): string {
    Clock.FormatIso(e.at)
  }

  /** The index sorted newest first by the runtime itself: no entry is older than
      one after it, and entries with the same runtime keep their listing order. */
  function GenerateIndexChronological(v: Variant, dir: Directory, fallback: Clock.Timestamp): (r: seq<IndexEntry>)
    ensures |r| <= JsonCount(dir)
    ensures multiset(r) == multiset(Entries(v, dir, fallback))
    ensures forall e :: e in r <==> BuiltFrom(v, dir, fallback, e)
    ensures forall i, j :: 0 <= i < j < |r| ==> !Clock.Before(r[i].at, r[j].at)
    ensures forall k :: WithKey(r, IsoKey, k) == WithKey(Entries(v, dir, fallback), IsoKey, k)
  {
    var es := Entries(v, dir, fallback);
    var r := SortDesc(es, IsoKey);
    SameMembers(r, es);
    EntriesAtMostJson(v, dir, fallback);
    forall i, j | 0 <= i < j < |r| ensures !Clock.Before(r[i].at, r[j].at) {
      Clock.IsoOrder(r[i].at, r[j].at);
    }
    r
  }

  /** Two runtimes whose display texts sort against time: a report of January 2026
      shows as `January 05, 2026 ...`, one of March 2025 as `March 01, 2025 ...`, and
      `"J" < "M"`. */
  lemma {:induction false} DisplayOrderNotChronological()
    ensures var older, newer := Clock.DateTime(2025, 3, 1, 0, 0, 0), Clock.DateTime(2026, 1, 5, 0, 0, 0);
            Clock.Valid(older) && Clock.Valid(newer) && Clock.Before(older, newer)
            && Lt(Clock.FormatDisplay(newer), Clock.FormatDisplay(older))
  {
    var older, newer := Clock.DateTime(2025, 3, 1, 0, 0, 0), Clock.DateTime(2026, 1, 5, 0, 0, 0);
    assert Clock.MonthName(1) == "January" && Clock.MonthName(3) == "March";
    var a, b := Clock.FormatDisplay(newer), Clock.FormatDisplay(older);
    assert a[0] == 'J' && b[0] == 'M';
  }

  /** Hence the index as written lists the March 2025 report above the January 2026
      one, whatever else the directory holds. */
  lemma {:induction false} IndexListsOlderFirst(v: Variant, dir: Directory, fallback: Clock.Timestamp, i: int, j: int)
    requires 0 <= i < |GenerateIndex(v, dir, fallback)| && 0 <= j < |GenerateIndex(v, dir, fallback)|
    requires GenerateIndex(v, dir, fallback)[i].at == Clock.DateTime(2025, 3, 1, 0, 0, 0)
    requires GenerateIndex(v, dir, fallback)[j].at == Clock.DateTime(2026, 1, 5, 0, 0, 0)
    ensures i < j
  {
    var r := GenerateIndex(v, dir, fallback);
    BuiltRuntime(v, dir, fallback, r[i]);
    BuiltRuntime(v, dir, fallback, r[j]);
    OlderFirstInDisplayOrder(r, i, j);
  }

  lemma {:induction false} OlderFirstInDisplayOrder(r: seq<IndexEntry>, i: int, j: int)
    requires DescendingBy(r, DisplayKey)
    requires 0 <= i < |r| && 0 <= j < |r|
    requires r[i].at == Clock.DateTime(2025, 3, 1, 0, 0, 0) && r[j].at == Clock.DateTime(2026, 1, 5, 0, 0, 0)
    requires r[i].runtime == Clock.FormatDisplay(r[i].at) && r[j].runtime == Clock.FormatDisplay(r[j].at)
    ensures i < j
  {
    DisplayOrderNotChronological();
  }

  /** The chronological index lists the same two reports the other way round. */
  lemma {:induction false} ChronologicalListsNewerFirst(v: Variant, dir: Directory, fallback: Clock.Timestamp, i: int, j: int)
    requires 0 <= i < |GenerateIndexChronological(v, dir, fallback)| && 0 <= j < |GenerateIndexChronological(v, dir, fallback)|
    requires GenerateIndexChronological(v, dir, fallback)[i].at == Clock.DateTime(2025, 3, 1, 0, 0, 0)
    requires GenerateIndexChronological(v, dir, fallback)[j].at == Clock.DateTime(2026, 1, 5, 0, 0, 0)
    ensures j < i
  {
    NewerFirstInTimeOrder(GenerateIndexChronological(v, dir, fallback), i, j);
  }

  lemma {:induction false} NewerFirstInTimeOrder(r: seq<IndexEntry>, i: int, j: int)
    requires forall a, b :: 0 <= a < b < |r| ==> !Clock.Before(r[a].at, r[b].at)
    requires 0 <= i < |r| && 0 <= j < |r|
    requires r[i].at == Clock.DateTime(2025, 3, 1, 0, 0, 0) && r[j].at == Clock.DateTime(2026, 1, 5, 0, 0, 0)
    ensures j < i
  {
    DisplayOrderNotChronological();
  }
}

=== FILE: Providers.dfy ===
/** The static provider registry (`REC_AREAS`), the validation of requested provider
    ids, and the reverse lookup from a provider's display name to its id. */
module Providers {
  import opened Common
  import opened AssocList

  /** One registry entry: the display name and the recreation areas (id, name) it
      serves. The search-backend class each entry also names is not modelled. */
  datatype ProviderConfig = ProviderConfig(providerName: string, areas: seq<(int, string)>)

  /** Provider id to configuration, in declaration order. */
  type Registry = seq<(string, ProviderConfig)>

  /** `REC_AREAS` of the main search script. */
  const SrcRegistry: Registry := [
    ("RecreationDotGov", ProviderConfig("Recreation.gov", [
      (2991, "Yosemite National Park"),
      (1073, "Shasta-Trinity National Forest, CA"),
      (1077, "Tahoe National Forest, CA"),
      (2025, "Lake Tahoe Basin Management Unit, CA")])),
    ("ReserveCalifornia", ProviderConfig("ReserveCalifornia", [
      (713, "Hearst San Simeon SP"),
      (728, "Tahoe SRA, Tahoe City, CA"),
      (640, "Donner Memorial SP"),
      (641, "Emerald Bay SP"),
      (690, "Pfeiffer Big Sur SP"),
      (661, "Julia Pfeiffer Burns SP"),
      (718, "Bodega Dunes SP"),
      (17, "Lake Berryessa SP"),
      (628, "Clear Lake SP")]))
  ]

  /** `REC_AREAS` of the favorites search script. */
  const FavoritesRegistry: Registry := [
    ("RecreationDotGov", ProviderConfig("Recreation.gov", [
      (2991, "Yosemite National Park"),
      (1073, "Shasta-Trinity National Forest, CA"),
      (1077, "Tahoe National Forest, CA"),
      (2025, "Lake Tahoe Basin Management Unit, CA")])),
    ("ReserveCalifornia", ProviderConfig("ReserveCalifornia", [
      (728, "Tahoe SRA, Tahoe City, CA"),
      (640, "Donner Memorial SP"),
      (641, "Emerald Bay SP"),
      (1097, "Burton Creek SP")]))
  ]

  /** `DEFAULT_PROVIDER`. */
  const DefaultProvider: string := "ReserveCalifornia"

  /** `AVAILABLE_PROVIDERS`: the registry's keys. */
  function AvailableProviders(): seq<string> {
    Keys(SrcRegistry)
  }

  /** The `ValueError` raised for unknown provider ids, carrying the offending ids. */
  datatype ProviderError = InvalidProviders(invalid: set<string>)

  /** `{pid: registry[pid] for pid in ids}`: one entry per distinct id, in first-seen
      order. */
  function SelectProviders(registry: Registry, ids: seq<string>): (r: seq<(string, ProviderConfig)>)
    requires forall id :: id in ids ==> id in Keys(registry)
    ensures Keys(r) == Dedup(ids)
    ensures forall k :: Lookup(r, k) == if k in ids then Lookup(registry, k) else None
  {
    if |ids| == 0 then []
    else
      var p := SelectProviders(registry, Init(ids));
      var r := Put(p, Last(ids), Lookup(registry, Last(ids)).value);
      SelectStep(registry, ids, p, r);
      r
  }

  lemma {:induction false} SelectStep(registry: Registry, ids: seq<string>, p: seq<(string, ProviderConfig)>, r: seq<(string, ProviderConfig)>)
    requires |ids| > 0 && Last(ids) in Keys(registry)
    requires Keys(p) == Dedup(Init(ids))
    requires forall k :: Lookup(p, k) == if k in Init(ids) then Lookup(registry, k) else None
    requires r == Put(p, Last(ids), Lookup(registry, Last(ids)).value)
    ensures Keys(r) == Dedup(ids)
    ensures forall k :: Lookup(r, k) == if k in ids then Lookup(registry, k) else None
  {
    var x := Last(ids);
    assert Dedup(ids) == if x in Dedup(Init(ids)) then Dedup(Init(ids)) else Dedup(Init(ids)) + [x];
    forall k ensures Lookup(r, k) == if k in ids then Lookup(registry, k) else None {
      MemberSnoc(ids, k);
      if k != x {
        assert Lookup(r, k) == Lookup(p, k);
      } else {
        assert Lookup(r, k) == Some(Lookup(registry, x).value);
      }
    }
  }

  /** `get_providers(provider_ids)`: with no ids (`None` or an empty list) the default
      provider alone; otherwise an error naming every unknown id, or exactly the
      requested registry entries. */
  function GetProviders(ids: Option<seq<string>>): (r: Result<seq<(string, ProviderConfig)>, ProviderError>)
    ensures (ids.None? || ids.value == []) ==>
      r.Success? && Keys(r.value) == [DefaultProvider] && Lookup(SrcRegistry, DefaultProvider) == Some(r.value[0].1)
    ensures ids.Some? && ids.value != [] ==>
      (r.Failure? <==> exists id :: id in ids.value && id !in AvailableProviders())
    ensures r.Failure? ==> r.error.invalid != {}
    ensures r.Failure? ==>
      forall id :: id in r.error.invalid <==> id in ids.value && id !in AvailableProviders()
    ensures r.Success? && ids.Some? && ids.value != [] ==>
      Keys(r.value) == Dedup(ids.value) &&
      forall k :: Lookup(r.value, k) == if k in ids.value then Lookup(SrcRegistry, k) else None
  {
    if ids.None? || |ids.value| == 0 then
      Success([(DefaultProvider, Lookup(SrcRegistry, DefaultProvider).value)])
    else
      if exists id :: id in ids.value && id !in AvailableProviders() then
        var invalid := set id | id in ids.value && id !in AvailableProviders();
        var w :| w in ids.value && w !in AvailableProviders();
        assert w in invalid;
        Failure(InvalidProviders(invalid))
      else
        Success(SelectProviders(SrcRegistry, ids.value))
  }

  /** Entry `i` is the first one whose display name is `name`. */
  predicate FirstNamed(registry: Registry, i: int, name: string)
    requires 0 <= i < |registry|
  {
    registry[i].1.providerName == name && forall j :: 0 <= j < i ==> registry[j].1.providerName != name
  }

  /** `next(k for k, v in registry.items() if v["provider_name"] == name)`: the first
      id whose display name is `name`; `None` where Python raises `StopIteration`. */
  function FindProviderId(registry: Registry, name: string): (r: Option<string>)
    ensures r.Some? <==> exists i :: 0 <= i < |registry| && registry[i].1.providerName == name
    ensures r.Some? ==>
      exists i :: 0 <= i < |registry| && registry[i].0 == r.value && FirstNamed(registry, i, name)
  {
    if |registry| == 0 then None
    else if registry[0].1.providerName == name then Some(registry[0].0)
    else
      var r := FindProviderId(registry[1..], name);
      assert forall i :: 0 < i < |registry| ==> registry[i] == registry[1..][i - 1];
      if r.Some? then
        var i :| 0 <= i < |registry[1..]| && registry[1..][i].0 == r.value && FirstNamed(registry[1..], i, name);
        assert registry[i + 1].0 == r.value && registry[i + 1].1.providerName == name;
        assert forall j :: 0 <= j < i + 1 ==> registry[j].1.providerName != name by {
          forall j | 0 <= j < i + 1 ensures registry[j].1.providerName != name {
            if j > 0 { assert registry[j] == registry[1..][j - 1]; }
          }
        }
        r
      else
        assert forall i :: 0 <= i < |registry| ==> registry[i].1.providerName != name by {
          forall i | 0 <= i < |registry| ensures registry[i].1.providerName != name {
            if i > 0 { assert registry[i] == registry[1..][i - 1]; }
          }
        }
        r
  }

  predicate DistinctNames(registry: Registry) {
    forall i, j :: 0 <= i < j < |registry| ==> registry[i].1.providerName != registry[j].1.providerName
  }

  /** When display names are distinct, looking up an entry's display name finds that
      entry's id. */
  lemma {:induction false} ProviderIdRoundTrip(registry: Registry, i: int)
    requires DistinctNames(registry) && 0 <= i < |registry|
    ensures FindProviderId(registry, registry[i].1.providerName) == Some(registry[i].0)
  {
    var r := FindProviderId(registry, registry[i].1.providerName);
    var j :| 0 <= j < |registry| && registry[j].0 == r.value && FirstNamed(registry, j, registry[i].1.providerName);
    assert j == i;
  }

  lemma {:induction false} RegistriesHaveDistinctNames()
    ensures DistinctNames(SrcRegistry) && DistinctNames(FavoritesRegistry)
  {
  }
}

=== FILE: Regenerate.dfy ===
/** `regenerate_reports`: every stored JSON summary whose `date_counts` is usable gets
    its HTML report rendered again, stamped with the regeneration time, and the index
    is rebuilt afterwards. The JSON files are never written. */
module Regenerate {
  import opened Common
  import opened AssocList
  import opened Text
  import Clock
  import opened Storage
  import opened Sorting
  import opened Index
  import Results
  import ReportStore

  /** The arguments `create_html_report` hands the report template. */
  datatype RenderContext = RenderContext(
    summaries: seq<JsonDoc>,
    startDate: string,
    endDate: string,
    mapsApiKey: Option<string>)

  /** What the run reads from outside: the template rendering, the
      `GOOGLE_MAPS_API_KEY` environment variable, the value of `datetime.now()` read
      while the file with a given base name is processed, and the modification time
      the HTML file written under that base name gets. */
  datatype Env = Env(
    render: RenderContext -> string,
    mapsApiKey: Option<string>,
    clock: string -> Clock.Timestamp,
    writtenAt: string -> Clock.Timestamp)

  /** Why a JSON file is passed over: `json.load` fails, `summary['date_counts']`
      raises `KeyError`, or `min` of its empty keys raises `ValueError`. */
  datatype SkipReason = UnreadableJson | MissingDateCounts | EmptyDateCounts

  /** What the log says about one JSON file. A summary without `rec_area_name` has
      its HTML written before the logging line raises `KeyError`. */
  datatype FileOutcome =
    | Regenerated(base: string, content: string)
    | WrittenThenFailed(base: string, content: string)
    | Skipped(base: string, reason: SkipReason)

  /** A file the loop writes an HTML report for. */
  predicate Regenerable(files: Files) {
    && files.json.Some? && files.json.value.Parsed?
    && files.json.value.doc.dateCounts.Some? && |files.json.value.doc.dateCounts.value| > 0
  }

  /** The template arguments for one summary: the summary alone, and the first and
      the last of its dates. */
  function ContextFor(d: JsonDoc, mapsApiKey: Option<string>): (r: RenderContext)
    requires d.dateCounts.Some? && |d.dateCounts.value| > 0
    ensures r.summaries == [d] && r.mapsApiKey == mapsApiKey
    ensures IsRange(Keys(d.dateCounts.value), r.startDate, r.endDate)
  {
    var dates := Keys(d.dateCounts.value);
    MinLeMax(dates);
    RenderContext([d], MinOf(dates), MaxOf(dates), mapsApiKey)
  }

  /** `<!-- Report regenerated at: {stamp} -->`, a newline, then the rendered
      report. */
  function RegeneratedHtml(stamp: string, body: string): string {
    "<!-- Report regenerated at: " + stamp + " -->" + "\n" + body
  }

  /** The HTML the loop writes for a regenerable file under `base`. */
  function NewHtml(base: string, files: Files, env: Env): (r: HtmlFile)
    requires Regenerable(files)
    ensures r.modified == env.writtenAt(base)
    ensures exists ctx: RenderContext :: ctx.summaries == [files.json.value.doc] && ctx.mapsApiKey == env.mapsApiKey
                && IsRange(Keys(files.json.value.doc.dateCounts.value), ctx.startDate, ctx.endDate)
                && r.content == RegeneratedHtml(Clock.FormatIso(env.clock(base)), env.render(ctx))
  {
    var ctx := ContextFor(files.json.value.doc, env.mapsApiKey);
    HtmlFile(RegeneratedHtml(Clock.FormatIso(env.clock(base)), env.render(ctx)), env.writtenAt(base))
  }

  /** One iteration of the loop, as the files it leaves behind under `base`. */
  function RegenerateFiles(base: string, files: Files, env: Env): (r: Files)
    ensures r.json == files.json
    ensures r.html.Some? <==> files.html.Some? || Regenerable(files)
    ensures Regenerable(files) ==> r.html == Some(NewHtml(base, files, env))
    ensures Regenerable(files) ==> r.html.value.modified == env.writtenAt(base)
    ensures !Regenerable(files) ==> r == files
  {
    if Regenerable(files) then files.(html := Some(NewHtml(base, files, env))) else files
  }

  /** The loop over every file of the directory; files without JSON are not listed
      by `glob("*.json")` and stay as they are. */
  function RegenerateDir(dir: Directory, env: Env): (r: Directory)
    ensures |r| == |dir|
    ensures forall i :: 0 <= i < |dir| ==> r[i].0 == dir[i].0 && r[i].1 == RegenerateFiles(dir[i].0, dir[i].1, env)
  {
    if |dir| == 0 then [] else [(dir[0].0, RegenerateFiles(dir[0].0, dir[0].1, env))] + RegenerateDir(dir[1..], env)
  }

  /** What the log reports for one file; `None` for a file without JSON. */
  function OutcomeOf(base: string, files: Files, env: Env): (r: Option<FileOutcome>)
    ensures r.None? <==> files.json.None?
    ensures r.Some? ==> r.value.base == base
    ensures r.Some? ==> (r.value.Skipped? <==> !Regenerable(files))
    ensures r.Some? && r.value.Skipped? ==>
              (r.value.reason == UnreadableJson <==> files.json.value.Unreadable?)
              && (r.value.reason == MissingDateCounts <==> files.json.value.Parsed? && files.json.value.doc.dateCounts.None?)
    ensures r.Some? && r.value.WrittenThenFailed? <==> Regenerable(files) && files.json.value.doc.recAreaName.None?
    ensures r.Some? && !r.value.Skipped? ==> Some(HtmlFile(r.value.content, env.writtenAt(base))) == RegenerateFiles(base, files, env).html
  {
    if files.json.None? then None
    else if files.json.value.Unreadable? then Some(Skipped(base, UnreadableJson))
    else
      var d := files.json.value.doc;
      if d.dateCounts.None? then Some(Skipped(base, MissingDateCounts))
      else if |d.dateCounts.value| == 0 then Some(Skipped(base, EmptyDateCounts))
      else
        var content := NewHtml(base, files, env).content;
        if d.recAreaName.None? then Some(WrittenThenFailed(base, content)) else Some(Regenerated(base, content))
  }

  function OutcomeStep(env: Env): ((string, Files)) -> Option<FileOutcome> {
    (p: (string, Files)) => OutcomeOf(p.0, p.1, env)
  }

  /** Every JSON file gets exactly one line of the log. */
  lemma {:induction false} OutcomeCount(dir: Directory, env: Env)
    ensures CountSome(dir, OutcomeStep(env)) == JsonCount(dir)
    decreases |dir|
  {
    if |dir| > 0 {
      OutcomeCount(dir[1..], env);
    }
  }

  /** The log of the loop, one line per JSON file in listing order. */
  function Outcomes(dir: Directory, env: Env): (r: seq<FileOutcome>)
    ensures |r| == JsonCount(dir)
    ensures forall o :: o in r ==> exists p :: p in dir && OutcomeOf(p.0, p.1, env) == Some(o)
    ensures forall p :: p in dir && p.1.json.Some? ==> OutcomeOf(p.0, p.1, env).value in r
  {
    OutcomeCount(dir, env);
    FilterMap(dir, OutcomeStep(env))
  }

  /** The whole run: the directory after the loop, its log, and the rebuilt index. */
  datatype Regeneration = Regeneration(dir: Directory, outcomes: seq<FileOutcome>, index: seq<IndexEntry>)

  /** `regenerate_reports`: the loop, then the main script's `generate_index_html`
      on the directory the loop left; `fallback` is the runtime the index assumes for
      a summary without one. */
  function RegenerateReports(dir: Directory, env: Env, fallback: Clock.Timestamp): (r: Regeneration)
    ensures r.dir == RegenerateDir(dir, env)
    ensures Keys(r.dir) == Keys(dir)
    ensures r.outcomes == Outcomes(dir, env)
    ensures |r.outcomes| == JsonCount(dir)
    ensures DescendingBy(r.index, DisplayKey)
    ensures multiset(r.index) == multiset(Entries(MainIndex, r.dir, fallback))
    ensures forall k :: WithKey(r.index, DisplayKey, k) == WithKey(Entries(MainIndex, r.dir, fallback), DisplayKey, k)
    ensures forall e :: e in r.index <==> BuiltFrom(MainIndex, r.dir, fallback, e)
  {
    var d := RegenerateDir(dir, env);
    Regeneration(d, Outcomes(dir, env), GenerateIndex(MainIndex, d, fallback))
  }

  /** The same run with the index sorted by the runtimes themselves, newest first. */
  function RegenerateReportsChronological(dir: Directory, env: Env, fallback: Clock.Timestamp): (r: Regeneration)
    ensures r.dir == RegenerateDir(dir, env)
    ensures Keys(r.dir) == Keys(dir)
    ensures r.outcomes == Outcomes(dir, env)
    ensures |r.outcomes| == JsonCount(dir)
    ensures forall i, j :: 0 <= i < j < |r.index| ==> !Clock.Before(r.index[i].at, r.index[j].at)
    ensures multiset(r.index) == multiset(Entries(MainIndex, r.dir, fallback))
    ensures forall k :: WithKey(r.index, IsoKey, k) == WithKey(Entries(MainIndex, r.dir, fallback), IsoKey, k)
    ensures forall e :: e in r.index <==> BuiltFrom(MainIndex, r.dir, fallback, e)
  {
    var d := RegenerateDir(dir, env);
    Regeneration(d, Outcomes(dir, env), GenerateIndexChronological(MainIndex, d, fallback))
  }

  /** Regenerating changes only HTML files and depends only on the JSON files, so a
      second run with the same clock writes nothing new. */
  lemma {:induction false} RegenerateIdempotent(dir: Directory, env: Env)
    ensures RegenerateDir(RegenerateDir(dir, env), env) == RegenerateDir(dir, env)
    decreases |dir|
  {
    if |dir| > 0 {
      var once := RegenerateDir(dir, env);
      RegenerateIdempotent(dir[1..], env);
      assert once[1..] == RegenerateDir(dir[1..], env);
    }
  }

  /** Looking a base name up after the loop finds what the loop made of the files
      stored under it before. */
  lemma {:induction false} LookupRegenerated(dir: Directory, env: Env, base: string)
    ensures Lookup(RegenerateDir(dir, env), base)
            == match Lookup(dir, base) case None => None case Some(f) => Some(RegenerateFiles(base, f, env))
    decreases |dir|
  {
    if |dir| > 0 && dir[0].0 != base {
      LookupRegenerated(dir[1..], env, base);
      assert RegenerateDir(dir, env)[1..] == RegenerateDir(dir[1..], env);
    }
  }

  /** With distinct base names, the clock reading and modification time taken for a
      base name belong to one file: what the directory holds under a file's name
      after the loop is made from that file. */
  lemma {:induction false} RegeneratedOwnFile(dir: Directory, env: Env, i: int)
    requires DistinctNames(dir) && 0 <= i < |dir|
    ensures Lookup(RegenerateDir(dir, env), dir[i].0) == Some(RegenerateFiles(dir[i].0, dir[i].1, env))
  {
    LookupRegenerated(dir, env, dir[i].0);
    LookupOwnName(dir, i);
  }

  /** A summary the main script saved regenerates cleanly as long as it found some
      dates: its HTML is rewritten, stamped with the time read for it, and its JSON
      kept. */
  lemma {:induction false} SavedReportRegenerates(dir: Directory, s: Results.Summary, startDate: string, endDate: string,
                                                  html: Option<string>, mtime: Clock.Timestamp, env: Env)
    requires |s.dateCounts| > 0
    ensures var base := ReportStore.BaseFilename(s.recAreaName, startDate, endDate);
            var saved := ReportStore.SaveRecAreaJson(dir, s, startDate, endDate, html, mtime).dir;
            var f := Lookup(RegenerateDir(saved, env), base);
            && f.Some? && f.value.json == Some(Parsed(ToJson(s)))
            && f.value.html.Some? && f.value.html.value.modified == env.writtenAt(base)
            && OutcomeOf(base, Lookup(saved, base).value, env).value.Regenerated?
  {
    var base := ReportStore.BaseFilename(s.recAreaName, startDate, endDate);
    var saved := ReportStore.SaveRecAreaJson(dir, s, startDate, endDate, html, mtime).dir;
    LookupRegenerated(saved, env, base);
  }

  /** The index can list a report from its JSON file alone: every condition of
      `Listable` except the sibling HTML file. */
  predicate JsonListable(v: Variant, files: Files, fallback: Clock.Timestamp) {
    Listable(v, files.(html := Some(HtmlFile("", fallback))), fallback)
  }

  /** After the loop a report is listable exactly when its JSON is, whether or not
      it had an HTML file before. */
  lemma {:induction false} RegeneratedListable(v: Variant, base: string, files: Files, env: Env, fallback: Clock.Timestamp)
    ensures Listable(v, RegenerateFiles(base, files, env), fallback) <==> JsonListable(v, files, fallback)
  {
  }

  /** Every entry of the rebuilt index belongs to a file the loop rewrote, and shows
      the time that file's HTML was written. */
  lemma {:induction false} IndexShowsRegeneration(dir: Directory, env: Env, fallback: Clock.Timestamp, e: IndexEntry)
    requires e in RegenerateReports(dir, env, fallback).index
    ensures exists p :: p in dir && Regenerable(p.1) && e.filename == p.0 + ".html"
                        && e.modified == Clock.FormatModified(env.writtenAt(p.0))
  {
    ModifiedInRegeneratedDir(dir, env, fallback, e);
  }

  lemma {:induction false} ModifiedInRegeneratedDir(dir: Directory, env: Env, fallback: Clock.Timestamp, e: IndexEntry)
    requires BuiltFrom(MainIndex, RegenerateDir(dir, env), fallback, e)
    ensures exists p :: p in dir && Regenerable(p.1) && e.filename == p.0 + ".html"
                        && e.modified == Clock.FormatModified(env.writtenAt(p.0))
  {
    var p :| p in RegenerateDir(dir, env) && BuildEntry(MainIndex, p.0, p.1, fallback) == Some(e);
    var i := RegeneratedFrom(dir, env, p);
    RegeneratedModified(dir[i].0, dir[i].1, env, fallback, e);
    assert dir[i] in dir;
  }

  /** Every file of the directory after the loop is what the loop made of a file
      before it. */
  lemma {:induction false} RegeneratedFrom(dir: Directory, env: Env, p: (string, Files)) returns (i: int)
    requires p in RegenerateDir(dir, env)
    ensures 0 <= i < |dir| && p == (dir[i].0, RegenerateFiles(dir[i].0, dir[i].1, env))
  {
    var d := RegenerateDir(dir, env);
    i :| 0 <= i < |d| && d[i] == p;
  }

  lemma {:induction false} RegeneratedModified(base: string, files: Files, env: Env, fallback: Clock.Timestamp, e: IndexEntry)
    requires BuildEntry(MainIndex, base, RegenerateFiles(base, files, env), fallback) == Some(e)
    ensures Regenerable(files) && e.filename == base + ".html"
    ensures e.modified == Clock.FormatModified(env.writtenAt(base))
  {
    RegeneratedListable(MainIndex, base, files, env, fallback);
  }

  /** Every report whose JSON the index can read is listed after regeneration. */
  lemma {:induction false} RegeneratedAllListed(dir: Directory, env: Env, fallback: Clock.Timestamp, i: int)
    requires 0 <= i < |dir| && JsonListable(MainIndex, dir[i].1, fallback)
    ensures BuildEntry(MainIndex, dir[i].0, RegenerateFiles(dir[i].0, dir[i].1, env), fallback).Some?
    ensures BuildEntry(MainIndex, dir[i].0, RegenerateFiles(dir[i].0, dir[i].1, env), fallback).value
            in RegenerateReports(dir, env, fallback).index
  {
    var r := RegenerateReports(dir, env, fallback);
    RegeneratedListable(MainIndex, dir[i].0, dir[i].1, env, fallback);
    assert r.dir[i] in r.dir;
  }
}

=== FILE: ReportStore.dfy ===
/** `save_rec_area_json` in its two variants: the report's base filename, and the
    JSON and HTML files written under it. */
module ReportStore {
  import opened Common
  import opened AssocList
  import opened Text
  import Clock
  import opened Results
  import opened Storage

  /** `s.lower()`, for the ASCII letters. */
  function Lower(s: string): (r: string)
    ensures |r| == |s|
    ensures forall i :: 0 <= i < |s| ==> r[i] == LowerChar(s[i])
  {
    if |s| == 0 then [] else [LowerChar(s[0])] + Lower(s[1..])
  }

  /** `s.replace(a, b)` for single characters. */
  function ReplaceChar(s: string, a: char, b: char): (r: string)
    ensures |r| == |s|
    ensures forall i :: 0 <= i < |s| ==> r[i] == if s[i] == a then b else s[i]
  {
    if |s| == 0 then [] else [if s[0] == a then b else s[0]] + ReplaceChar(s[1..], a, b)
  }

  /** `s.replace(c, "")`: `s` with every `c` dropped, the other characters kept in
      order. */
  function RemoveChar(s: string, c: char): (r: string)
    ensures c !in r
    ensures forall x :: x != c ==> (x in r <==> x in s)
    ensures |r| <= |s|
  {
    if |s| == 0 then []
    else if s[0] == c then RemoveChar(s[1..], c)
    else [s[0]] + RemoveChar(s[1..], c)
  }

  /** `name.lower().replace(" ", "-").replace(",", "")`: no space or comma is left,
      and the name never grows. */
  function SanitizeName(name: string): (r: string)
    ensures ' ' !in r && ',' !in r
    ensures |r| <= |name|
  {
    RemoveChar(ReplaceChar(Lower(name), ' ', '-'), ',')
  }

  predicate IsUpper(c: char) {
    'A' <= c <= 'Z'
  }

  /** What one character of a recreation-area name becomes in a filename. */
  function SanitizeChar(c: char): string {
    if c == ',' then "" else if c == ' ' then "-" else [LowerChar(c)]
  }

  /** The same sanitisation, done in one pass character by character. */
  function SanitizeEach(name: string): string {
    if |name| == 0 then "" else SanitizeChar(name[0]) + SanitizeEach(name[1..])
  }

  /** The three passes of `SanitizeName` agree with the one-pass definition. */
  lemma {:induction false} SanitizeNameEach(name: string)
    ensures SanitizeName(name) == SanitizeEach(name)
    decreases |name|
  {
    if |name| > 0 {
      SanitizeNameEach(name[1..]);
      var c := name[0];
      assert Lower(name) == [LowerChar(c)] + Lower(name[1..]);
      assert ReplaceChar(Lower(name), ' ', '-')
          == [if LowerChar(c) == ' ' then '-' else LowerChar(c)] + ReplaceChar(Lower(name[1..]), ' ', '-');
    }
  }

  /** A sanitised name holds no space, no comma and no upper-case ASCII letter. */
  lemma {:induction false} SanitizedIsSafe(name: string)
    ensures ' ' !in SanitizeName(name) && ',' !in SanitizeName(name)
    ensures forall c :: c in SanitizeName(name) ==> !IsUpper(c)
  {
    var l := Lower(name);
    var m := ReplaceChar(l, ' ', '-');
    assert ' ' !in m;
    forall c | c in SanitizeName(name) ensures !IsUpper(c) {
      assert c in m;
      var i :| 0 <= i < |m| && m[i] == c;
      assert c == '-' || c == LowerChar(name[i]);
    }
  }

  /** Sanitising a sanitised name changes nothing. */
  lemma {:induction false} SanitizeIdempotent(name: string)
    ensures SanitizeName(SanitizeName(name)) == SanitizeName(name)
  {
    SanitizeNameEach(name);
    SanitizeNameEach(SanitizeEach(name));
    EachIdempotent(name);
  }

  lemma {:induction false} EachIdempotent(name: string)
    ensures SanitizeEach(SanitizeEach(name)) == SanitizeEach(name)
    decreases |name|
  {
    if |name| > 0 {
      EachIdempotent(name[1..]);
      EachConcat(SanitizeChar(name[0]), SanitizeEach(name[1..]));
    }
  }

  lemma {:induction false} EachConcat(a: string, b: string)
    ensures SanitizeEach(a + b) == SanitizeEach(a) + SanitizeEach(b)
    decreases |a|
  {
    if |a| == 0 {
      assert a + b == b;
    } else {
      assert (a + b)[1..] == a[1..] + b;
      EachConcat(a[1..], b);
    }
  }

  /** `f"{rec_area_name}_{start_date}_to_{end_date}"` of the main script. */
  function BaseFilename(recAreaName: string, startDate: string, endDate: string): string {
    SanitizeName(recAreaName) + "_" + startDate + "_to_" + endDate
  }

  /** The favorites script's name: the same, then `_` and the save time as
      `%Y%m%d_%H%M%S`. */
  function FavoritesBaseFilename(recAreaName: string, startDate: string, endDate: string, now: Clock.Timestamp): string {
    BaseFilename(recAreaName, startDate, endDate) + "_" + Clock.FormatStamp(now)
  }

  /** A base name holds a space or a comma only if one of the dates does. */
  lemma {:induction false} BaseFilenameIsSafe(recAreaName: string, startDate: string, endDate: string)
    ensures ' ' in BaseFilename(recAreaName, startDate, endDate) <==> ' ' in startDate || ' ' in endDate
    ensures ',' in BaseFilename(recAreaName, startDate, endDate) <==> ',' in startDate || ',' in endDate
  {
    SanitizedIsSafe(recAreaName);
    var b := BaseFilename(recAreaName, startDate, endDate);
    assert b == SanitizeName(recAreaName) + "_" + startDate + "_to_" + endDate;
  }

  /** Two favorites saves at different times write under different names. */
  lemma {:induction false} FavoritesNamesDiffer(name1: string, name2: string, startDate: string, endDate: string,
                                                a: Clock.Timestamp, b: Clock.Timestamp)
    requires a != b
    ensures FavoritesBaseFilename(name1, startDate, endDate, a) != FavoritesBaseFilename(name2, startDate, endDate, b)
  {
    var p := BaseFilename(name1, startDate, endDate) + "_";
    var q := BaseFilename(name2, startDate, endDate) + "_";
    var x, y := FavoritesBaseFilename(name1, startDate, endDate, a), FavoritesBaseFilename(name2, startDate, endDate, b);
    assert x == p + Clock.FormatStamp(a) && y == q + Clock.FormatStamp(b);
    if x == y {
      assert x[|x| - 15..] == Clock.FormatStamp(a) && y[|y| - 15..] == Clock.FormatStamp(b);
      Clock.StampInjective(a, b);
    }
  }

  /** `<!-- Report generated at: {runtime} -->`, a newline, then the rendered
      report. */
  function GeneratedHtml(runtime: string, body: string): string {
    "<!-- Report generated at: " + runtime + " -->" + "\n" + body
  }

  /** What a save leaves behind: the directory, and the paths written. */
  datatype Saved = Saved(dir: Directory, jsonPath: string, htmlPath: Option<string>)

  /** Writes `<base>.json` and, when `html` is given and non-empty, `<base>.html`
      carrying the generated-at comment; `mtime` is the time the HTML file is
      written. A report HTML already present under the base name stays when no HTML
      is given. */
  function SaveAs(dir: Directory, base: string, s: Summary, html: Option<string>, mtime: Clock.Timestamp): (r: Saved)
    ensures r.jsonPath == JsonPath(base)
    ensures Lookup(r.dir, base).Some? && Lookup(r.dir, base).value.json == Some(Parsed(ToJson(s)))
    ensures r.htmlPath.Some? <==> html.Some? && html.value != ""
    ensures r.htmlPath.Some? ==> r.htmlPath.value == HtmlPath(base)
    ensures r.htmlPath.Some? ==> Lookup(r.dir, base).value.html == Some(HtmlFile(GeneratedHtml(s.runtime, html.value), mtime))
    ensures r.htmlPath.None? ==> Lookup(r.dir, base).value.html == (if Lookup(dir, base).Some? then Lookup(dir, base).value.html else None)
    ensures forall k :: k != base ==> Lookup(r.dir, k) == Lookup(dir, k)
  {
    var prior := Lookup(dir, base).GetOr(Files(None, None));
    if html.Some? && html.value != "" then
      Saved(Put(dir, base, Files(Some(Parsed(ToJson(s))), Some(HtmlFile(GeneratedHtml(s.runtime, html.value), mtime)))),
            JsonPath(base), Some(HtmlPath(base)))
    else
      Saved(Put(dir, base, prior.(json := Some(Parsed(ToJson(s))))), JsonPath(base), None)
  }

  /** `save_rec_area_json` of the main script. */
  function SaveRecAreaJson(dir: Directory, s: Summary, startDate: string, endDate: string,
                           html: Option<string>, mtime: Clock.Timestamp): (r: Saved)
    ensures r.jsonPath == JsonPath(BaseFilename(s.recAreaName, startDate, endDate))
    ensures r.htmlPath.None? <==> html.None? || html.value == ""
  {
    SaveAs(dir, BaseFilename(s.recAreaName, startDate, endDate), s, html, mtime)
  }

  /** `save_rec_area_json` of the favorites script: `now` is the clock reading the
      base name is stamped with, `mtime` the modification time the HTML file gets. */
  function SaveFavoritesJson(dir: Directory, s: Summary, startDate: string, endDate: string,
                             html: Option<string>, now: Clock.Timestamp, mtime: Clock.Timestamp): (r: Saved)
    ensures r.jsonPath == JsonPath(FavoritesBaseFilename(s.recAreaName, startDate, endDate, now))
    ensures r.htmlPath.None? <==> html.None? || html.value == ""
  {
    SaveAs(dir, FavoritesBaseFilename(s.recAreaName, startDate, endDate, now), s, html, mtime)
  }

  /** A summary saved by the main script reads back unchanged from its JSON file. */
  lemma {:induction false} SavedSummaryReadsBack(dir: Directory, s: Summary, startDate: string, endDate: string,
                                                 html: Option<string>, mtime: Clock.Timestamp)
    ensures var r := SaveRecAreaJson(dir, s, startDate, endDate, html, mtime);
            var f := Lookup(r.dir, BaseFilename(s.recAreaName, startDate, endDate));
            f.Some? && f.value.json.Some? && f.value.json.value.Parsed? && FromJson(f.value.json.value.doc) == Some(s)
  {
    JsonRoundTrip(s);
  }

  /** Favorites saves whose clock readings differ (to the second) never overwrite one
      another: what the first wrote is still there after the second. */
  lemma {:induction false} FavoritesSavesKeepEarlier(dir: Directory, s1: Summary, s2: Summary, startDate: string, endDate: string,
                                                     h1: Option<string>, h2: Option<string>, a: Clock.Timestamp, b: Clock.Timestamp,
                                                     m1: Clock.Timestamp, m2: Clock.Timestamp)
    requires a != b
    ensures var first := SaveFavoritesJson(dir, s1, startDate, endDate, h1, a, m1);
            var second := SaveFavoritesJson(first.dir, s2, startDate, endDate, h2, b, m2);
            var base := FavoritesBaseFilename(s1.recAreaName, startDate, endDate, a);
            Lookup(second.dir, base) == Lookup(first.dir, base)
  {
    FavoritesNamesDiffer(s1.recAreaName, s2.recAreaName, startDate, endDate, a, b);
  }
}

=== FILE: Results.dfy ===
/** `build_results_summary`: the summary dictionary built from one recreation area's
    matches. Both search scripts hold the same body; they differ only in the registry
    the provider id is looked up in, which is a parameter here. */
module Results {
  import opened Common
  import opened AssocList
  import opened Sorting
  import Clock
  import opened Providers
  import opened Aggregation
  import opened AggregationFacts

  /** The `provider` object of a summary. */
  datatype ProviderRef = ProviderRef(name: string, id: string)

  /** The returned dictionary, field by field. Ids arrive already converted with
      `str(...)`. */
  datatype Summary = Summary(
    runtime: string,
    provider: ProviderRef,
    recAreaName: string,
    recAreaId: string,
    totalSites: nat,
    dateCounts: seq<(string, nat)>,
    availableSites: seq<(string, Facility)>,
    allAmenities: seq<(string, seq<string>)>)

  /** The `StopIteration` raised when no registry entry carries the provider name. */
  datatype SummaryError = UnknownProvider(name: string)

  /** `{k: sorted(list(v)) for k, v in all_amenities.items()}`: same keys in the same
      order, each value list sorted ascending with duplicates dropped. */
  function SortValues(vals: seq<(string, seq<string>)>): (r: seq<(string, seq<string>)>)
    ensures Keys(r) == Keys(vals)
    ensures forall n :: Lookup(r, n).Some? ==> StrictlyAscending(Lookup(r, n).value)
    ensures forall n, v :: v in Lookup(r, n).GetOr([]) <==> v in Lookup(vals, n).GetOr([])
  {
    if |vals| == 0 then []
    else
      var t := SortValues(vals[1..]);
      var head := (vals[0].0, SortDistinct(vals[0].1));
      assert vals == [vals[0]] + vals[1..];
      KeysCons(head, t);
      KeysCons(vals[0], vals[1..]);
      LookupCons(head, t);
      LookupCons(vals[0], vals[1..]);
      [head] + t
  }

  /** The sorted `all_amenities` of the matches `ms`: one key per recorded attribute
      name in first-seen order, each holding exactly the values recorded for it,
      strictly ascending. */
  ghost predicate AmenitiesSorted(ms: seq<Match>, all: seq<(string, seq<string>)>) {
    && Keys(all) == Dedup(AttributeNames(RecordedAttributes(ms)))
    && (forall n :: Lookup(all, n).Some? ==> StrictlyAscending(Lookup(all, n).value))
    && (forall n, v :: v in Lookup(all, n).GetOr([]) <==> Attribute(n, v) in RecordedAttributes(ms))
  }

  /** What the counting fields of a summary say about the matches it was built from,
      stated through the reference definitions of `Aggregation`. */
  ghost predicate Summarizes(ms: seq<Match>, s: Summary) {
    && s.totalSites == |ms| == SumBy(s.dateCounts, Count)
    && CountsAgree(ms, s.dateCounts)
    && SitesAgree(ms, s.availableSites)
    && SumBy(s.availableSites, FacilityDates) == |ms|
    && AmenitiesSorted(ms, s.allAmenities)
  }

  lemma {:induction false} FoldSummarizes(ms: seq<Match>, s: Summary)
    requires s.totalSites == |ms|
    requires s.dateCounts == Fold(ms).dateCounts && s.availableSites == Fold(ms).sites
    requires s.allAmenities == SortValues(Fold(ms).amenityValues)
    ensures Summarizes(ms, s)
  {
    DateCountsAgree(ms);
    SitesAgreeFold(ms);
    TotalDates(ms);
    ValuesAgreeFold(ms);
  }

  /** The summary of `ms` for one recreation area, stamped with `now` (the value of
      `datetime.now()`), or the failure of the provider-id lookup. */
  function BuildResultsSummary(registry: Registry, ms: seq<Match>, recAreaName: string, providerName: string,
                               recAreaId: string, now: Clock.Timestamp): (r: Result<Summary, SummaryError>)
    ensures r.Failure? <==> forall i :: 0 <= i < |registry| ==> registry[i].1.providerName != providerName
    ensures r.Failure? ==> r.error == UnknownProvider(providerName)
    ensures r.Success? ==> Clock.ParseIso(r.value.runtime) == Some(now)
    ensures r.Success? ==> r.value.provider.name == providerName
    ensures r.Success? ==> exists i :: 0 <= i < |registry| && registry[i].0 == r.value.provider.id
                                       && FirstNamed(registry, i, providerName)
    ensures r.Success? ==> r.value.recAreaName == recAreaName && r.value.recAreaId == recAreaId
    ensures r.Success? ==> Summarizes(ms, r.value)
  {
    match FindProviderId(registry, providerName)
    case None => Failure(UnknownProvider(providerName))
    case Some(id) =>
      var t := Fold(ms);
      var s := Summary(Clock.FormatIso(now), ProviderRef(providerName, id), recAreaName, recAreaId,
                       |ms|, t.dateCounts, t.sites, SortValues(t.amenityValues));
      FoldSummarizes(ms, s);
      Clock.ParseFormatIso(now);
      Success(s)
  }
}

=== FILE: Sorting.dfy ===
/** The two sorts the reports use: `sorted(set_of_strings)` for the amenity value
    lists, and Python's stable `list.sort(key=..., reverse=True)` for the index. */
module Sorting {
  import opened Common
  import opened Text

  predicate StrictlyAscending(xs: seq<string>) {
    forall i, j :: 0 <= i < j < |xs| ==> Lt(xs[i], xs[j])
  }

  /** Adds `x` to a strictly ascending list unless it is already there. */
  function InsertDistinct(x: string, xs: seq<string>): (r: seq<string>)
    requires StrictlyAscending(xs)
    ensures StrictlyAscending(r)
    ensures forall v :: v in r <==> v == x || v in xs
  {
    if |xs| == 0 then [x]
    else if x == xs[0] then xs
    else if Lt(x, xs[0]) then
      assert forall j :: 0 < j < |xs| ==> Lt(x, xs[j]) by {
        forall j | 0 < j < |xs| ensures Lt(x, xs[j]) { LtTransitive(x, xs[0], xs[j]); }
      }
      [x] + xs
    else
      var t := InsertDistinct(x, xs[1..]);
      LtTotal(x, xs[0]);
      assert forall v :: v in t ==> Lt(xs[0], v);
      [xs[0]] + t
  }

  /** `sorted(s)` for the set `s` of the elements of `xs`: ascending, no duplicates,
      and holding exactly the elements of `xs`. */
  function SortDistinct(xs: seq<string>): (r: seq<string>)
    ensures StrictlyAscending(r)
    ensures forall v :: v in r <==> v in xs
  {
    if |xs| == 0 then [] else InsertDistinct(xs[0], SortDistinct(xs[1..]))
  }

  /** No element is followed by one with a larger key. */
  predicate DescendingBy<T>(xs: seq<T>, key: T -> string) {
    forall i, j :: 0 <= i < j < |xs| ==> !Lt(key(xs[i]), key(xs[j]))
  }

  /** The elements of `xs` whose key is `k`, in their order in `xs`. */
  function WithKey<T>(xs: seq<T>, key: T -> string, k: string): seq<T> {
    if |xs| == 0 then []
    else (if key(xs[0]) == k then [xs[0]] else []) + WithKey(xs[1..], key, k)
  }

  lemma {:induction false} WithKeyConcat<T>(xs: seq<T>, ys: seq<T>, key: T -> string, k: string)
    ensures WithKey(xs + ys, key, k) == WithKey(xs, key, k) + WithKey(ys, key, k)
    decreases |xs|
  {
    if |xs| > 0 {
      assert (xs + ys)[1..] == xs[1..] + ys;
      WithKeyConcat(xs[1..], ys, key, k);
    } else {
      assert xs + ys == ys;
    }
  }

  /** Places `x` after every element whose key is not smaller than its own, which is
      where a stable descending sort puts the element that came last. */
  function InsertDesc<T>(x: T, ys: seq<T>, key: T -> string): (r: seq<T>)
    requires DescendingBy(ys, key)
    ensures DescendingBy(r, key)
    ensures multiset(r) == multiset(ys) + multiset{x}
    ensures forall k :: WithKey(r, key, k) == WithKey(ys, key, k) + WithKey([x], key, k)
  {
    if |ys| == 0 then [x]
    else if Lt(key(ys[0]), key(x)) then
      InsertInFront(x, ys, key);
      [x] + ys
    else
      var t := InsertDesc(x, ys[1..], key);
      InsertBehind(x, ys, key, t);
      [ys[0]] + t
  }

  lemma {:induction false} InsertInFront<T>(x: T, ys: seq<T>, key: T -> string)
    requires DescendingBy(ys, key) && |ys| > 0 && Lt(key(ys[0]), key(x))
    ensures DescendingBy([x] + ys, key)
    ensures forall k :: WithKey([x] + ys, key, k) == WithKey(ys, key, k) + WithKey([x], key, k)
  {
    forall j | 0 <= j < |ys| ensures Lt(key(ys[j]), key(x)) && !Lt(key(x), key(ys[j])) {
      if j > 0 {
        LtTotal(key(ys[0]), key(ys[j]));
        if Lt(key(ys[j]), key(ys[0])) { LtTransitive(key(ys[j]), key(ys[0]), key(x)); }
      }
      LtAsymmetric(key(ys[j]), key(x));
    }
    forall k ensures WithKey([x] + ys, key, k) == WithKey(ys, key, k) + WithKey([x], key, k) {
      WithKeyConcat([x], ys, key, k);
      if key(x) == k { NoneWithKey(ys, key, k); }
    }
  }

  lemma {:induction false} InsertBehind<T>(x: T, ys: seq<T>, key: T -> string, t: seq<T>)
    requires DescendingBy(ys, key) && |ys| > 0 && !Lt(key(ys[0]), key(x))
    requires DescendingBy(t, key)
    requires multiset(t) == multiset(ys[1..]) + multiset{x}
    requires forall k :: WithKey(t, key, k) == WithKey(ys[1..], key, k) + WithKey([x], key, k)
    ensures DescendingBy([ys[0]] + t, key)
    ensures multiset([ys[0]] + t) == multiset(ys) + multiset{x}
    ensures forall k :: WithKey([ys[0]] + t, key, k) == WithKey(ys, key, k) + WithKey([x], key, k)
  {
    HeadBoundsRest(x, ys, key, t);
    PrependDescending(ys[0], t, key);
    assert ys == [ys[0]] + ys[1..];
    forall k ensures WithKey([ys[0]] + t, key, k) == WithKey(ys, key, k) + WithKey([x], key, k) {
      BehindWithKey(x, ys, key, t, k);
    }
  }

  lemma {:induction false} BehindWithKey<T>(x: T, ys: seq<T>, key: T -> string, t: seq<T>, k: string)
    requires |ys| > 0
    requires WithKey(t, key, k) == WithKey(ys[1..], key, k) + WithKey([x], key, k)
    ensures WithKey([ys[0]] + t, key, k) == WithKey(ys, key, k) + WithKey([x], key, k)
  {
    WithKeyConcat([ys[0]], t, key, k);
    WithKeyConcat([ys[0]], ys[1..], key, k);
    assert ys == [ys[0]] + ys[1..];
  }

  lemma {:induction false} HeadBoundsRest<T>(x: T, ys: seq<T>, key: T -> string, t: seq<T>)
    requires DescendingBy(ys, key) && |ys| > 0 && !Lt(key(ys[0]), key(x))
    requires multiset(t) == multiset(ys[1..]) + multiset{x}
    ensures forall e | e in t :: !Lt(key(ys[0]), key(e))
  {
    forall e | e in t ensures !Lt(key(ys[0]), key(e)) {
      assert e in multiset(t);
      if e != x {
        assert e in multiset(ys[1..]);
        var i :| 0 <= i < |ys[1..]| && ys[1..][i] == e;
        assert ys[i + 1] == e;
      }
    }
  }

  lemma {:induction false} PrependDescending<T>(y: T, t: seq<T>, key: T -> string)
    requires DescendingBy(t, key)
    requires forall e | e in t :: !Lt(key(y), key(e))
    ensures DescendingBy([y] + t, key)
  {
    forall i, j | 0 <= i < j < |[y] + t| ensures !Lt(key(([y] + t)[i]), key(([y] + t)[j])) {
      assert ([y] + t)[j] == t[j - 1];
      if i == 0 {
        assert t[j - 1] in t;
      } else {
        assert ([y] + t)[i] == t[i - 1];
      }
    }
  }

  lemma {:induction false} NoneWithKey<T>(ys: seq<T>, key: T -> string, k: string)
    requires forall j :: 0 <= j < |ys| ==> Lt(key(ys[j]), k)
    ensures WithKey(ys, key, k) == []
    decreases |ys|
  {
    if |ys| > 0 {
      LtIrreflexive(k);
      NoneWithKey(ys[1..], key, k);
    }
  }

  /** Python's `xs.sort(key=key, reverse=True)`: a permutation of `xs`, descending
      by key, and stable, so elements with equal keys keep their relative order. */
  function SortDesc<T>(xs: seq<T>, key: T -> string): (r: seq<T>)
    ensures DescendingBy(r, key)
    ensures multiset(r) == multiset(xs)
    ensures forall k :: WithKey(r, key, k) == WithKey(xs, key, k)
  {
    if |xs| == 0 then []
    else
      var s := SortDesc(Init(xs), key);
      assert xs == Init(xs) + [Last(xs)];
      forall k ensures WithKey(xs, key, k) == WithKey(Init(xs), key, k) + WithKey([Last(xs)], key, k) {
        WithKeyConcat(Init(xs), [Last(xs)], key, k);
      }
      InsertDesc(Last(xs), s, key)
  }
}

=== FILE: Storage.dfy ===
/** The `logs` directory the scripts share: for each base name, the JSON summary
    (`<base>.json`) and the HTML report (`<base>.html`), either of which may be
    missing. */
module Storage {
  import opened Common
  import opened AssocList
  import Clock
  import opened Aggregation
  import opened Results

  /** The `provider` value of a stored summary, as the index reads it. */
  datatype ProviderField =
    | NoProvider                                      // no "provider" key
    | ProviderObject(name: Option<string>, id: Option<string>)  // an object, with or without its keys
    | ProviderNotObject                               // present but not an object (e.g. null)

  /** A stored summary as loaded by `json.load`: every key may be missing from a
      file the scripts did not write themselves. */
  datatype JsonDoc = JsonDoc(
    runtime: Option<string>,
    provider: ProviderField,
    recAreaName: Option<string>,
    recAreaId: Option<string>,
    totalSites: Option<nat>,
    dateCounts: Option<seq<(string, nat)>>,
    availableSites: Option<seq<(string, Facility)>>,
    allAmenities: Option<seq<(string, seq<string>)>>)

  /** A `.json` file's content: a JSON object, or anything `json.load` rejects or
      that is not an object. */
  datatype JsonFile = Unreadable | Parsed(doc: JsonDoc)

  /** An HTML file: its text and its modification time. */
  datatype HtmlFile = HtmlFile(content: string, modified: Clock.Timestamp)

  /** The two files sharing one base name. */
  datatype Files = Files(json: Option<JsonFile>, html: Option<HtmlFile>)

  /** Base name to files, in the (unspecified) order `glob` lists them. */
  type Directory = seq<(string, Files)>

  /** `glob` lists each file once, so no base name appears twice. */
  predicate DistinctNames(dir: Directory) {
    forall i, j :: 0 <= i < j < |dir| ==> dir[i].0 != dir[j].0
  }

  /** With distinct base names, looking a file's own name up finds that file. */
  lemma {:induction false} LookupOwnName(dir: Directory, i: int)
    requires DistinctNames(dir) && 0 <= i < |dir|
    ensures Lookup(dir, dir[i].0) == Some(dir[i].1)
    decreases i
  {
    if i > 0 {
      var rest := dir[1..];
      assert rest[i - 1] == dir[i];
      assert DistinctNames(rest) by {
        forall a, b | 0 <= a < b < |rest|
          ensures rest[a].0 != rest[b].0
        {
          assert rest[a] == dir[a + 1] && rest[b] == dir[b + 1];
        }
      }
      LookupOwnName(rest, i - 1);
      assert dir[0].0 != dir[i].0;
    }
  }

  const LogDir: string := "logs/"

  function JsonPath(base: string): string {
    LogDir + base + ".json"
  }

  /** `json_file.with_suffix('.html')`. */
  function HtmlPath(base: string): string {
    LogDir + base + ".html"
  }

  /** `json.dump(summary)` as `json.load` reads it back. */
  function ToJson(s: Summary): JsonDoc {
    JsonDoc(Some(s.runtime), ProviderObject(Some(s.provider.name), Some(s.provider.id)), Some(s.recAreaName),
            Some(s.recAreaId), Some(s.totalSites), Some(s.dateCounts), Some(s.availableSites),
            Some(s.allAmenities))
  }

  /** The summary a stored document holds, when it has every key. */
  function FromJson(d: JsonDoc): (r: Option<Summary>)
    ensures r.Some? <==> && d.runtime.Some? && d.provider.ProviderObject? && d.provider.name.Some?
                         && d.provider.id.Some? && d.recAreaName.Some? && d.recAreaId.Some?
                         && d.totalSites.Some? && d.dateCounts.Some? && d.availableSites.Some?
                         && d.allAmenities.Some?
    ensures r.Some? ==> ToJson(r.value) == d
  {
    if && d.runtime.Some? && d.provider.ProviderObject? && d.provider.name.Some? && d.provider.id.Some?
       && d.recAreaName.Some? && d.recAreaId.Some? && d.totalSites.Some? && d.dateCounts.Some?
       && d.availableSites.Some? && d.allAmenities.Some?
    then
      Some(Summary(d.runtime.value, ProviderRef(d.provider.name.value, d.provider.id.value),
                   d.recAreaName.value, d.recAreaId.value, d.totalSites.value, d.dateCounts.value,
                   d.availableSites.value, d.allAmenities.value))
    else None
  }

  /** Every summary the scripts write reads back as itself. */
  lemma {:induction false} JsonRoundTrip(s: Summary)
    ensures FromJson(ToJson(s)) == Some(s)
  {
  }
}

=== FILE: Text.dfy ===
/** Python's ordering of `str` values and the character-level helpers the report
    filenames use. */
module Text {

  /** `a < b` on Python strings: lexicographic by code point, a proper prefix
      sorting first. */
  predicate Lt(a: string, b: string)
    decreases |a|
  {
    if |a| == 0 then |b| > 0
    else if |b| == 0 then false
    else a[0] < b[0] || (a[0] == b[0] && Lt(a[1..], b[1..]))
  }

  /** `a <= b` on Python strings. */
  predicate Le(a: string, b: string) {
    a == b || Lt(a, b)
  }

  lemma {:induction false} LtIrreflexive(a: string)
    ensures !Lt(a, a)
    decreases |a|
  {
    if |a| > 0 {
      LtIrreflexive(a[1..]);
    }
  }

  lemma {:induction false} LtTransitive(a: string, b: string, c: string)
    requires Lt(a, b) && Lt(b, c)
    ensures Lt(a, c)
    decreases |a|
  {
    if |a| > 0 && a[0] == b[0] && b[0] == c[0] {
      LtTransitive(a[1..], b[1..], c[1..]);
    }
  }

  lemma {:induction false} LtTotal(a: string, b: string)
    ensures Lt(a, b) || a == b || Lt(b, a)
    decreases |a|
  {
    if |a| > 0 && |b| > 0 && a[0] == b[0] {
      LtTotal(a[1..], b[1..]);
      if a[1..] == b[1..] {
        assert a == [a[0]] + a[1..] && b == [b[0]] + b[1..];
      }
    }
  }

  lemma {:induction false} LtAsymmetric(a: string, b: string)
    requires Lt(a, b)
    ensures !Lt(b, a)
  {
    if Lt(b, a) {
      LtTransitive(a, b, a);
      LtIrreflexive(a);
    }
  }

  lemma {:induction false} LeTransitive(a: string, b: string, c: string)
    requires Le(a, b) && Le(b, c)
    ensures Le(a, c)
  {
    if Lt(a, b) && Lt(b, c) {
      LtTransitive(a, b, c);
    }
  }

  /** Comparing two concatenations whose first parts have equal length decides on
      the first parts, and on the second parts only when the first parts agree. */
  lemma {:induction false} LtConcat(p: string, q: string, p': string, q': string)
    requires |p| == |p'|
    ensures Lt(p + q, p' + q') <==> Lt(p, p') || (p == p' && Lt(q, q'))
    decreases |p|
  {
    if |p| == 0 {
      assert p + q == q && p' + q' == q';
    } else {
      assert (p + q)[0] == p[0] && (p' + q')[0] == p'[0];
      assert (p + q)[1..] == p[1..] + q && (p' + q')[1..] == p'[1..] + q';
      LtConcat(p[1..], q, p'[1..], q');
      if p[0] == p'[0] && p[1..] == p'[1..] {
        assert p == [p[0]] + p[1..] && p' == [p'[0]] + p'[1..];
      }
    }
  }

  /** The smallest string of a non-empty list: Python's `min` over strings. */
  function MinOf(xs: seq<string>): (r: string)
    requires |xs| > 0
    ensures r in xs
    ensures forall x :: x in xs ==> Le(r, x)
  {
    if |xs| == 1 then xs[0]
    else
      var m := MinOf(xs[1..]);
      LtTotal(xs[0], m);
      forall x | x in xs[1..] ensures Le(m, x) || Le(xs[0], m) {
      }
      if Le(xs[0], m) then
        (forall x | x in xs[1..] ensures Le(xs[0], x) { LeTransitive(xs[0], m, x); }
         xs[0])
      else m
  }

  /** The largest string of a non-empty list: Python's `max` over strings. */
  function MaxOf(xs: seq<string>): (r: string)
    requires |xs| > 0
    ensures r in xs
    ensures forall x :: x in xs ==> Le(x, r)
  {
    if |xs| == 1 then xs[0]
    else
      var m := MaxOf(xs[1..]);
      LtTotal(xs[0], m);
      if Le(m, xs[0]) then
        (forall x | x in xs[1..] ensures Le(x, xs[0]) { LeTransitive(x, m, xs[0]); }
         xs[0])
      else m
  }

  lemma {:induction false} MinLeMax(xs: seq<string>)
    requires |xs| > 0
    ensures Le(MinOf(xs), MaxOf(xs))
  {
  }

  /** Python's `str.lower()` on one character, for the ASCII letters. */
  function LowerChar(c: char): (r: char)
    ensures 'A' <= c <= 'Z' ==> 'a' <= r <= 'z' && r as int - c as int == 32
    ensures !('A' <= c <= 'Z') ==> r == c
  {
    if 'A' <= c <= 'Z' then (c as int + 32) as char else c
  }
}
